=== FILE: README.md ===
# ihome booking and listing core, in Dafny

This project models the two request-handler modules at the heart of the
ihome home-stay rental backend, a Flask application over MySQL and Redis:

- `ihome/api_1_0/orders.py` covers four handlers:
  - booking a house (`save_order`);
  - listing a user's orders as renter or landlord (`get_user_orders`);
  - the landlord accepting or rejecting a waiting order (`accept_reject_order`);
  - the renter reviewing a stay (`save_order_comment`).
- `ihome/api_1_0/house.py` covers six handlers:
  - the area list (`get_areas_info`);
  - publishing a house (`save_new_house`);
  - uploading a house image (`save_house_image`);
  - the home page (`get_house_index`);
  - the detail page (`get_house_detail`);
  - the paged, filtered and sorted listing (`get_houses_list`).

Each state-changing or cached handler appears twice (`get_user_orders`,
a plain read, is a single method specified directly):

- A **function** states the answer (an errno or a value) and the new tables
  or cache, in terms of the old ones.
- A **method** walks the handler's steps over a `Store` (the MySQL tables)
  and a `Cache` (Redis). Its postcondition ties its answer and the new state
  to that function.

Lemmas then prove what the handlers promise.

## How the model is built

### State
- **Tables** are sequences. The tables are autoincrement and the handlers
  never delete, and the model assumes ids are handed out without gaps, so
  row `i` holds id `i + 1` (see "Left out" for when MySQL breaks this).
- **`Store.Valid`** holds three invariants. Ids sit in place. Every order is
  well formed: its house exists, `days == end - begin + 1` and
  `amount == days * house_price`. No house is booked twice for the same day.
  Every state-changing method preserves `Valid`.
- **The cache** is a map from key to a string value or a hash, each with an
  optional TTL. An expired key is simply absent, because the clock is not
  modelled.

### Failures
Each store or cache call that can raise is a boolean parameter of the
handler. The handlers' `try`/`except` blocks decide what each failure
becomes:
- a store failure usually becomes `DBERR`;
- a cache failure is swallowed;
- an exception outside any `try` escapes the handler (an HTTP 500). This is
  modelled as the code `Uncaught`.

### Errno values
Errno values are symbolic. The numeric codes in `ihome/utils/response_code.py`
are not part of this model.

### Where the code differs from its documented intent
The model follows the code.

- **Missing or non-waiting order.** In `accept_reject_order` and
  `save_order_comment`, a missing order (or one in the wrong status) is
  answered with `DBERR`, not `REQERR`. The query returns `None`, and
  `order.house` then raises inside the `try` (orders.py:133-137, 180-185). So
  `save_order_comment` never answers `REQERR`, which `Orders.Review` proves.
- **No JSON body on a review** escapes the handler: `None.get` is called
  outside any `try` (orders.py:172-174).
- **Accepting or rejecting an order whose house row is missing** escapes the
  handler (orders.py:139).
- **The home page** never answers `NODATA`, and a store failure there escapes
  the handler. The query is lazy and always true; it runs in the loop outside
  the `try` (house.py:241-251).
- **An image upload for a missing house** escapes the handler, after the
  image has been uploaded (house.py:162-181).
- **Booking conflicts ignore order status.** Both the conflict count and the
  listing's conflict query treat a rejected or completed order as still
  holding its dates.

## Model

| member | source | states |
|---|---|---|
| Availability.OverlapsIffSharedDay | ihome/api_1_0/orders.py:55-56 | the filter `begin_date <= end and end_date >= start` holds for two non-empty inclusive stays exactly when some day lies in both |
| Availability.Clashing | ihome/api_1_0/orders.py:55-56 | the counted orders are exactly the orders on the house whose stay overlaps the requested one |
| Availability.BetweenMatchesBooking | ihome/api_1_0/house.py:365-369 | with both dates given, the listing hides a house exactly when a booking of it for those dates would be refused as already booked |
| Availability.OneSidedCoarser | ihome/api_1_0/house.py:371-380 | a start-only or end-only search hides at least the houses the two-sided search with the same bound hides; no dates hide nothing |
| Availability.CollectConflictHouseIds | ihome/api_1_0/house.py:365-380 | the ids collected from the conflicting orders are exactly the houses with an order blocking the requested window |
| Availability.AppendKeepsCalendarDisjoint | ihome/api_1_0/orders.py:54-76 | inserting an order that clashes with no existing order keeps every house free of double bookings |
| Model.HouseByIdFinds | ihome/api_1_0/orders.py:43 | `House.query.get(id)` finds a row exactly when a house with that id exists, and the row it finds has that id |
| Sorting.SortBy | ihome/api_1_0/orders.py:99 | `order_by` returns every row exactly as often as it was selected, in key order |
| KvCache.DetailKeysDistinct | ihome/api_1_0/house.py:279 | two different houses never share a `house_info_<id>` key, so a review's delete touches only its own house |
| KvCache.KeyFamiliesDisjoint | ihome/api_1_0/house.py:346 | detail, listing, area and home-page keys never collide |
| KvCache.ReadString | ihome/api_1_0/house.py:23-27 | GET hits exactly on a string value and returns it; a missing key misses; a down server or a hash raises |
| KvCache.ReadField | ihome/api_1_0/house.py:345-352 | HGET hits exactly on a present field of a hash and returns it |
| KvCache.WritesKeepExpiry | ihome/api_1_0/house.py:411-417 | SETEX and the MULTI/HSET/EXPIRE pipeline keep every key expiring, and a written value reads back |
| KvCache.Cache.PipelineHSetExpire | ihome/api_1_0/house.py:411-419 | a failed transactional pipeline applies neither command; otherwise the HSET sets the field and the EXPIRE sets the TTL, except that on a key holding a string the HSET fails with WRONGTYPE and only the EXPIRE takes effect |
| KvCache.Cache.SetEx | ihome/api_1_0/house.py:46-49 | SETEX stores the value with its TTL, replacing whatever the key held; a failure leaves the cache as it was |
| KvCache.Cache.Get | ihome/api_1_0/house.py:23-27 | the read answers exactly what `ReadString` says of the current cache and changes nothing |
| KvCache.Cache.HGet | ihome/api_1_0/house.py:345-352 | the read answers exactly what `ReadField` says of the current cache and changes nothing |
| KvCache.Cache.Delete | ihome/api_1_0/orders.py:204-207 | DEL removes exactly the key, and a failure leaves the cache as it was |
| Orders.Book | ihome/api_1_0/orders.py:15-82 | the handler checks, in order, for missing or invalid parameters (PARAMERR), a missing house (NODATA), the owner booking their own house (ROLEERR) and an overlapping order (DATAERR). A request passing every check with no store call failing is booked, A failing house lookup, conflict count or commit answers DBERR on the path that reaches it, DBERR arises only from such a failure, and any failure prevents success. On success the order is the requested stay at the house's current price, `amount == days * price`, status WAIT_ACCEPT, and it clashes with no existing order |
| Orders.BookingKeepsConsistent | ihome/api_1_0/orders.py:54-76 | a successful booking keeps the tables consistent; in particular no house is booked twice for a day |
| Orders.BookingScenario | ihome/api_1_0/orders.py:55-72 | the worked example: days 14-18 clash with a held 10-15 stay, days 16-20 cost 5 x price, and the owner gets ROLEERR |
| Orders.SaveOrder | ihome/api_1_0/orders.py:13-82 | the handler inserts exactly the order `Book` decides, or nothing, and keeps the store valid |
| Orders.OrdersOnHouses | ihome/api_1_0/orders.py:99 | the orders selected are exactly those on the given houses |
| Orders.OrdersOfRenter | ihome/api_1_0/orders.py:102 | the orders selected are exactly those placed by the user |
| Orders.GetUserOrders | ihome/api_1_0/orders.py:85-112 | a landlord sees exactly the orders on their houses and anyone else exactly their own, each once, newest first; a failed query is DBERR |
| Orders.AcceptReject | ihome/api_1_0/orders.py:115-162 | an unknown action is PARAMERR; a missing or non-waiting order is DBERR; a non-owner gets REQERR; a rejection without a reason is PARAMERR; the house's owner accepting, or rejecting with a reason, a waiting order succeeds unless a store call fails; a failed read, or a failed commit of a permitted move, answers DBERR; DBERR needs a failing store call or no waiting order, a failed read or commit prevents success, and only a missing house row escapes; success moves WAIT_ACCEPT to WAIT_COMMENT or to REJECTED with the reason, changing nothing else |
| Orders.UpdateKeepsConsistent | ihome/api_1_0/orders.py:142-156 | changing only an order's status and comment keeps the tables consistent |
| Orders.AcceptRejectOrder | ihome/api_1_0/orders.py:115-162 | the handler writes exactly the order `AcceptReject` decides, or nothing, and keeps the store valid |
| Orders.Review | ihome/api_1_0/orders.py:165-202 | an empty comment is PARAMERR; a missing, foreign or non-WAIT_COMMENT order is DBERR and REQERR never occurs; the renter's WAIT_COMMENT order with its house present is completed unless a store call fails, a failed read, a missing house row or a failed commit answers DBERR; DBERR needs one of those or no matching order, and a failed read or commit prevents success; success completes the order with the comment and adds one to the house's order count |
| Orders.AfterReview | ihome/api_1_0/orders.py:203-207 | after a committed review the house's detail entry is gone unless the delete failed; every other key and value stays, and a failed review or delete changes nothing |
| Orders.FinishedOrdersStayFinished | ihome/api_1_0/orders.py:133 | a completed or rejected order can be neither accepted, rejected nor reviewed, and has no move left |
| Orders.SaveOrderComment | ihome/api_1_0/orders.py:165-209 | the handler writes exactly the order and house `Review` decides, deletes the detail entry, and keeps the store valid |
| Listing.ParseListing | ihome/api_1_0/house.py:324-343 | an unparsable date, a start after the end, or a page that is not an integer is PARAMERR; arguments passing every check are accepted, and the window is exactly the dates given |
| Listing.Admitted | ihome/api_1_0/house.py:360-369 | the query keeps exactly the houses in the requested area (any area when none is given) whose id is not excluded |
| Listing.SortKeyOf | ihome/api_1_0/house.py:382-390 | "booking", "price-inc" and "price-des" select their orders, and any other key sorts newest first |
| Listing.RankedMeaning | ihome/api_1_0/house.py:382-390 | in key order: most booked first, cheapest first, dearest first, or newest first |
| Listing.Ordered | ihome/api_1_0/house.py:382-390 | the sorted query returns every admitted house exactly once, in the requested order |
| Listing.TotalPagesIsCeiling | ihome/api_1_0/house.py:394 | `pages` is the least number of pages of the capacity that holds every house, and 0 when the capacity is 0 |
| Listing.Offset | ihome/api_1_0/house.py:392-393 | the rows `paginate` skips before a page, a page below 1 reading as page 1; what paging promises is stated by `PageOf`, `PagesArePrefix` and `PastLastPageEmpty` |
| Listing.TotalPages | ihome/api_1_0/house.py:394 | `Pagination.pages`; its meaning, the ceiling of count over capacity, is proved by `TotalPagesIsCeiling` |
| Listing.PageOf | ihome/api_1_0/house.py:392-393 | a page holds at most the capacity, taken in order from the page's offset |
| Listing.PagesArePrefix | ihome/api_1_0/house.py:392-393 | pages 1 to n together are the first n x capacity houses |
| Listing.PagesTileTheList | ihome/api_1_0/house.py:392-394 | pages 1 to `total_page` hold every house exactly once, in order, and the last of them is not empty |
| Listing.PastLastPageEmpty | ihome/api_1_0/house.py:392-394 | a page beyond `total_page` is empty |
| Listing.Plan | ihome/api_1_0/house.py:358-405 | the page echoes the requested page number, holds at most the capacity, and reports the page count of all matching houses |
| Listing.PlanShowsOnlyEligible | ihome/api_1_0/house.py:360-380 | every house on a page is in the requested area and has no order conflicting with the requested dates |
| Listing.PlanFollowsSortKey | ihome/api_1_0/house.py:382-393 | the houses on a page follow the requested order |
| Listing.FillListing | ihome/api_1_0/house.py:358-419 | the miss path: a store failure is DBERR with the cache unchanged; otherwise the answer is the planned page, written back exactly when the page is not beyond `total_page` and the write does not fail, and the cache is unchanged for a page beyond it; every key still expires |
| Listing.ListHouses | ihome/api_1_0/house.py:314-421 | the whole handler: argument checks, the cached page, or the miss path; a store failure on a miss is DBERR and writes nothing, a failed write-back leaves the cache unchanged, and every key still expires afterwards. Its behaviour is stated by the `Listing*` lemmas below |
| Listing.ListingMissWritesBack | ihome/api_1_0/house.py:399-419 | a valid request that misses the cache, with no store or write failure, answers the planned page and writes it back exactly when the page is not beyond `total_page` |
| Listing.ListingRejectsBadArguments | ihome/api_1_0/house.py:324-343 | invalid arguments are answered with PARAMERR before the cache or the store is touched |
| Listing.ListingHitIsVerbatim | ihome/api_1_0/house.py:345-356 | a cached page is returned as stored and nothing is written |
| Listing.ListingWritesOnlyInRange | ihome/api_1_0/house.py:399-419 | the only errors are PARAMERR and DBERR, and the cache changes only by writing a page not beyond `total_page` under the query's own key |
| Listing.ListingFallsThrough | ihome/api_1_0/house.py:345-352 | with Redis down the listing answers exactly what the store alone answers |
| Listing.ListingWriteFailureInvisible | ihome/api_1_0/house.py:412-421 | a failed write-back never changes the answer |
| Listing.ListingRepeatIsCached | ihome/api_1_0/house.py:345-356 | once a page has been written back, the same request is answered from the cache with the same answer and nothing more is written |
| Listing.Project | ihome/api_1_0/house.py:396-398 | the page is turned into its list of summaries, one per house, in order |
| Listing.QueryPage | ihome/api_1_0/house.py:358-398 | the store half of the handler computes exactly the planned page |
| Listing.GetHousesList | ihome/api_1_0/house.py:314-421 | the handler answers and leaves the cache exactly as `ListHouses` says |
| Houses.AreasInfo | ihome/api_1_0/house.py:14-52 | a cached list is returned as stored; otherwise a store failure is DBERR, and success returns every area; a miss with no store or write failure writes the list back for the area TTL, and a failed write leaves the cache unchanged |
| Houses.AreasServedFromCache | ihome/api_1_0/house.py:23-32 | once written back, the area list is served from the cache whatever the table then holds |
| Houses.GetAreasInfo | ihome/api_1_0/house.py:14-52 | the handler answers and leaves the cache exactly as `AreasInfo` says |
| Houses.WithImage | ihome/api_1_0/house.py:251-256 | the loop keeps exactly the houses that have an index image |
| Houses.WithImageKeepsRank | ihome/api_1_0/house.py:251-256 | skipping houses without an image keeps the rest in booking order |
| Houses.HomeHouses | ihome/api_1_0/house.py:242-256 | the houses the home page shows: of the configured number of most-booked houses, those with an index image; its properties are `HomeHousesAreRanked` and `HomeShowsMostBooked` |
| Houses.HomeHousesAreRanked | ihome/api_1_0/house.py:239-256 | the home page shows at most the configured number of houses, all from the table and all with an image, most booked first |
| Houses.HomeShowsMostBooked | ihome/api_1_0/house.py:242-256 | a house with an image is either on the home page or booked no more than every house shown there |
| Houses.HouseIndex | ihome/api_1_0/house.py:226-265 | a cached home page is returned as stored; a store failure escapes; otherwise the page of most-booked houses is returned; a miss with no store or write failure writes it back for the home-page TTL, and a failed write leaves the cache unchanged |
| Houses.ProjectWithImage | ihome/api_1_0/house.py:250-256 | the loop summarises exactly the houses with an index image, in order |
| Houses.GetHouseIndex | ihome/api_1_0/house.py:226-265 | the handler answers and leaves the cache exactly as `HouseIndex` says |
| Houses.HouseDetailOf | ihome/api_1_0/house.py:268-311 | id 0 is PARAMERR; on a miss a failed store read is DBERR and a failed serialisation DATAERR, neither writing; every answer carries the viewer's id (-1 when not logged in); a miss answers NODATA exactly when the house does not exist, and otherwise the stored house; a house read from the store is written back unless the write fails, only such a success writes the detail entry, and a failed write leaves the cache unchanged |
| Houses.DetailFallsThrough | ihome/api_1_0/house.py:288-302 | with Redis down the detail page is the store's house, or NODATA |
| Houses.DetailAfterReviewIsFresh | ihome/api_1_0/orders.py:190-207 | after a successful review and delete, the next detail read shows the house with its bumped order count |
| Houses.GetHouseDetail | ihome/api_1_0/house.py:268-311 | the handler answers and leaves the cache exactly as `HouseDetailOf` says |
| Houses.NewHouse | ihome/api_1_0/house.py:54-143 | a missing body, an empty required field or an unconvertible price or deposit is PARAMERR; a complete, convertible form is saved unless a store call fails, a raising facility query escapes and a failed commit answers DBERR; DBERR arises only from a failed commit, and either failure prevents success; success creates the next id for the owner at the request time, with every form field as sent, the converted price and deposit, no orders, no image, and exactly the requested facilities that exist |
| Houses.NewHouseKeepsConsistent | ihome/api_1_0/house.py:112-143 | the new house lands at its id, leaves every other lookup unchanged, and keeps the tables consistent |
| Houses.SaveNewHouse | ihome/api_1_0/house.py:54-143 | the handler inserts exactly the house `NewHouse` decides, or nothing, and keeps the store valid |
| Houses.AddImage | ihome/api_1_0/house.py:146-193 | the checks run in order: no image (PARAMERR), a failed lookup (DATAERR), a failed upload (THIRDERR), a missing house (escapes). An upload for an existing house is saved unless a store call fails, a failed commit for an existing house answers DBERR, DBERR arises only from a failed commit, and a failed lookup or commit prevents success. Success records the image, sets the index image only if there was none, returns the prefixed URL, and leaves every other house alone |
| Houses.FirstImageWins | ihome/api_1_0/house.py:180-183 | the first image uploaded becomes the index image and later uploads never replace it |
| Houses.ImageKeepsConsistent | ihome/api_1_0/house.py:175-186 | an image upload keeps the tables consistent |
| Houses.SaveHouseImage | ihome/api_1_0/house.py:146-193 | the handler writes exactly the houses and images `AddImage` decides, or nothing, and keeps the store valid |

## Left out

- Dates: `strptime` and datetime arithmetic are not modelled. A date argument is its raw text plus the day number it parses to, if it parses, and days are integers.
- Prices: `int(float(price) * 100)` is not modelled. The form carries the converted cents, or `None` when conversion raises, because this is floating point.
- JSON: serialisation, the `to_dict`, `to_basic_dict` and `to_full_dict` projections, and the response envelopes are not modelled. A payload stands for its JSON text. The cached area list answers `errno` 0, but a fresh one answers the string "0"; the model does not show this difference.
- Time to live: expiry timing is not modelled, because there is no clock. A key past its TTL is absent. `AllExpire` records that every written key has a TTL.
- Ids: ids are assumed to have no gaps, so a new order gets id `|orders| + 1` and a new house `|houses| + 1` (`Orders.Book`, `Houses.NewHouse`). InnoDB does lose an auto-increment value when an insert is rolled back, and both `save_order` (orders.py:77-80) and `save_new_house` (house.py:137-141) roll back a failed commit, so after such a failure the real id is larger. The model does not capture this.
- Orders.Book: the booking's `house_id` is taken as an integer (`None` when the key is missing). A JSON string id such as "0" or "abc" passes the `all()` check in the source and is coerced by MySQL in the lookup, answering NODATA; string ids and their coercion are not modelled.
- Logging: the `current_app.logger` calls on every failure path are not modelled; they write only to the log and change no answer or state.
- Concurrency: two bookings racing between the conflict count and the commit are not modelled. Handlers run one at a time.
- Cache write order: the cache write happens before the HTTP response, and that order is not modelled. The method returns both the response and the new cache.
- Tie order: SQL leaves the order of rows with equal sort keys unspecified. The model keeps table order for them.
- Paging: `paginate` follows Flask-SQLAlchemy 2.3 up to (not including) 3.0, where a page below 1 with `error_out=False` reads as page 1. `current_page` and the write-back test use the raw page number, as the handler does. Under Flask-SQLAlchemy 3.x, `paginate` takes keyword arguments only, so the positional call at house.py:392 raises inside the `try` and every cache miss answers DBERR; that behaviour is not modelled.
- Listing write-back TTL: the listing hash expires after `HOME_PAGE_DATA_REDIS_EXPIRES`, as in the source.
- Configuration values: `ihome/constants.py` is not part of this model. Page capacity, home-page size, TTLs and the image URL prefix are the fields of `Config`.
- Facilities and areas: MySQL's coercion of string ids ("7") to integers is not modelled. Facility ids are numbers.
- Missing JSON keys: `house_data.get(...)` on a missing key is the same as the empty string. Non-string JSON values are not modelled.
- The image store (Qiniu): the upload is an input, either the returned name or `None` when it raises. The image bytes are not modelled.
- Listing and home-page entries are not invalidated by the store writes. The source never invalidates them; they go stale until their TTL ends.
- `get_user_houses` (house.py:196-222) is not part of this model. It is outside the booking and listing core and is a plain read of a user's houses.
- Authentication: `login_required`, the session and `g.user_id` are not modelled. The acting user is a parameter, and so is the detail page's optional viewer id.
- Other modules: `ihome/models.py`, `ihome/utils/response_code.py` and `ihome/utils/image_storage.py` are not part of this model. Their entities are reconstructed from how the handlers use them.

=== FILE: availability.dfy ===
// The availability checks: the inclusive date-overlap test that order
// creation runs against one house (ihome/api_1_0/orders.py:54-62), and the
// conflict set that the listing query excludes (ihome/api_1_0/house.py:360-380).
// Neither looks at an order's status: a rejected or completed order still
// blocks its dates.

module Availability {
  import opened Model

  /** The inclusive ranges [b1, e1] and [b2, e2] share a day, as the SQL
      filter `begin_date <= end AND end_date >= start` decides it. */
  predicate Overlaps(b1: Day, e1: Day, b2: Day, e2: Day)
  {
    b1 <= e2 && b2 <= e1
  }

  lemma OverlapsSymmetric(b1: Day, e1: Day, b2: Day, e2: Day)
    ensures Overlaps(b1, e1, b2, e2) == Overlaps(b2, e2, b1, e1)
  {
  }

  /** Day `d` lies in the inclusive range [b, e]. */
  predicate Covers(b: Day, e: Day, d: Day)
  {
    b <= d <= e
  }

  /** The comparison test agrees with its meaning: some day lies in both ranges. */
  lemma OverlapsIffSharedDay(b1: Day, e1: Day, b2: Day, e2: Day)
    ensures Overlaps(b1, e1, b2, e2) && b1 <= e1 && b2 <= e2
            <==> exists d :: Covers(b1, e1, d) && Covers(b2, e2, d)
  {
    if Overlaps(b1, e1, b2, e2) && b1 <= e1 && b2 <= e2 {
      var d := if b1 < b2 then b2 else b1;
      assert Covers(b1, e1, d) && Covers(b2, e2, d);
    }
  }

  /** An existing order blocks a booking of `houseId` from `start` to `end`. */
  predicate Clashes(o: Order, houseId: int, start: Day, end: Day)
  {
    o.houseId == houseId && Overlaps(o.begin, o.end, start, end)
  }

  /** The rows `Order.query.filter(house_id == h, begin_date <= end,
      end_date >= start)` selects, in table order; creation counts them. */
  function Clashing(orders: seq<Order>, houseId: int, start: Day, end: Day): (r: seq<Order>)
    ensures |r| <= |orders|
    ensures forall o :: o in r <==> o in orders && Clashes(o, houseId, start, end)
  {
    if orders == [] then []
    else
      var rest := Clashing(orders[1..], houseId, start, end);
      assert orders == [orders[0]] + orders[1..];
      if Clashes(orders[0], houseId, start, end) then [orders[0]] + rest else rest
  }

  /** The date window of a listing request: both bounds, one, or none. */
  datatype Window = Unbounded | From(start: Day) | Until(end: Day) | Between(start: Day, end: Day)

  /** An order conflicts with the requested window: the two-sided test when
      both dates were given, a one-sided comparison when only one was. */
  predicate Blocks(o: Order, w: Window)
  {
    match w
    case Between(s, e) => o.begin <= e && o.end >= s
    case From(s) => o.end >= s
    case Until(e) => o.begin <= e
    case Unbounded => false
  }

  /** The ids of houses that have some order conflicting with the window. */
  ghost function ConflictHouses(orders: seq<Order>, w: Window): set<nat>
  {
    set o | o in orders && Blocks(o, w) :: o.houseId
  }

  /** With both dates the listing excludes exactly the houses that a booking
      for the same dates would be refused on. */
  lemma BetweenMatchesBooking(orders: seq<Order>, houseId: nat, start: Day, end: Day)
    ensures houseId in ConflictHouses(orders, Between(start, end))
            <==> |Clashing(orders, houseId, start, end)| > 0
  {
    var r := Clashing(orders, houseId, start, end);
    if houseId in ConflictHouses(orders, Between(start, end)) {
      var o :| o in orders && Blocks(o, Between(start, end)) && o.houseId == houseId;
      assert o in r;
    }
    if |r| > 0 {
      assert r[0] in r;
    }
  }

  /** A one-sided window excludes at least every house the two-sided window
      with the same bound excludes. */
  lemma OneSidedCoarser(orders: seq<Order>, start: Day, end: Day)
    ensures ConflictHouses(orders, Between(start, end)) <= ConflictHouses(orders, From(start))
    ensures ConflictHouses(orders, Between(start, end)) <= ConflictHouses(orders, Until(end))
    ensures ConflictHouses(orders, Unbounded) == {}
  {
  }

  /** `[order.house_id for order in conflict_orders]`: walks the orders the
      window query selects and lists their house ids (repeats included). */
  method CollectConflictHouseIds(orders: seq<Order>, w: Window) returns (ids: seq<nat>)
    ensures |ids| <= |orders|
    ensures forall h :: h in ids <==> h in ConflictHouses(orders, w)
  {
    ids := [];
    var i := 0;
    while i < |orders|
      invariant 0 <= i <= |orders|
      invariant |ids| <= i
      invariant forall h :: h in ids <==> h in ConflictHouses(orders[..i], w)
    {
      if Blocks(orders[i], w) {
        ids := ids + [orders[i].houseId];
      }
      assert orders[..i + 1] == orders[..i] + [orders[i]];
      i := i + 1;
    }
    assert orders[..i] == orders;
  }

  /** No two orders on the same house share a day. */
  ghost predicate CalendarDisjoint(orders: seq<Order>)
  {
    forall i, j :: 0 <= i < j < |orders| && orders[i].houseId == orders[j].houseId
      ==> !Overlaps(orders[i].begin, orders[i].end, orders[j].begin, orders[j].end)
  }

  /** Adding an order that clashes with no existing order keeps every house's
      calendar free of double bookings. */
  lemma AppendKeepsCalendarDisjoint(orders: seq<Order>, o: Order)
    requires CalendarDisjoint(orders)
    requires forall p :: p in orders ==> !Clashes(p, o.houseId, o.begin, o.end)
    ensures CalendarDisjoint(orders + [o])
  {
    var all := orders + [o];
    forall i, j | 0 <= i < j < |all| && all[i].houseId == all[j].houseId
      ensures !Overlaps(all[i].begin, all[i].end, all[j].begin, all[j].end)
    {
      if j == |orders| {
        assert all[i] in orders && all[j] == o;
      }
    }
  }
}

=== FILE: base.dfy ===
// Shared vocabulary of the ihome API handlers: optional values, handler
// outcomes, the response error classes, and the decimal rendering of ids that
// the cache keys use.

module Base {

  datatype Option<+T> = None | Some(value: T)

  /** The `errno` classes a handler answers with. The numeric codes live in
      ihome/utils/response_code.py, which is not part of this model, so they
      stay symbolic. `Uncaught` is not an errno: it stands for an exception
      that escapes the handler, which Flask turns into an HTTP 500 page. */
  datatype Ret =
    | OK
    | DBERR
    | NODATA
    | DATAERR
    | PARAMERR
    | ROLEERR
    | REQERR
    | THIRDERR
    | Uncaught

  /** The value a handler hands back on success, or the class of its failure. */
  datatype Result<+T> = Ok(value: T) | Err(code: Ret)

  function Digit(d: nat): (c: char)
    requires d < 10
    ensures '0' <= c <= '9'
    ensures c as int - '0' as int == d
  {
    "0123456789"[d]
  }

  /** Python's `"%s" % n` for a non-negative integer. */
  function NatToString(n: nat): (s: string)
    ensures |s| >= 1
    ensures forall i :: 0 <= i < |s| ==> '0' <= s[i] <= '9'
    ensures n >= 10 ==> |s| >= 2
  {
    if n < 10 then [Digit(n)] else NatToString(n / 10) + [Digit(n % 10)]
  }

  /** Distinct ids render as distinct strings, so keys built from them never
      collide. */
  lemma {:induction false} NatToStringInjective(a: nat, b: nat)
    requires NatToString(a) == NatToString(b)
    ensures a == b
  {
    var sa, sb := NatToString(a), NatToString(b);
    if a < 10 && b < 10 {
      assert Digit(a) == sa[0] == sb[0] == Digit(b);
    } else if a >= 10 && b >= 10 {
      var pa, pb := NatToString(a / 10), NatToString(b / 10);
      assert sa == pa + [Digit(a % 10)] && sb == pb + [Digit(b % 10)];
      assert Digit(a % 10) == sa[|sa| - 1] == sb[|sb| - 1] == Digit(b % 10);
      assert pa == sa[..|sa| - 1] == sb[..|sb| - 1] == pb;
      NatToStringInjective(a / 10, b / 10);
    } else {
      // one rendering has a single digit, the other at least two
      assert false;
    }
  }
}

=== FILE: db.dfy ===
// The relational store the handlers query and commit to: one table per row
// type. Tables are autoincrement, the handlers never delete, and ids are
// assumed to be handed out without gaps, so row i of a table holds id i + 1. A failed commit is modelled by the handler leaving
// the tables as they were (the rollback).

module Db {
  import opened Model
  import opened Availability

  /** What the handlers guarantee of every order row they insert. */
  predicate WellFormedOrder(o: Order, houseCount: nat)
  {
    && 1 <= o.houseId <= houseCount
    && o.begin <= o.end
    && o.days == o.end - o.begin + 1
    && o.amount == o.days * o.housePrice
  }

  /** The invariant of the tables: ids in place, orders well formed and
      pointing at an existing house, and no house booked twice for a day. */
  ghost predicate Consistent(houses: seq<House>, orders: seq<Order>)
  {
    && HouseIdsInPlace(houses)
    && OrderIdsInPlace(orders)
    && (forall i :: 0 <= i < |orders| ==> WellFormedOrder(orders[i], |houses|))
    && CalendarDisjoint(orders)
  }

  class Store {
    var houses: seq<House>
    var orders: seq<Order>
    var areas: seq<Area>
    var images: seq<HouseImage>
    /** Ids present in the facility table. */
    var facilityIds: set<nat>

    ghost predicate Valid()
      reads this
    {
      Consistent(houses, orders)
    }

    constructor (areas: seq<Area>, facilityIds: set<nat>)
      ensures Valid()
      ensures houses == [] && orders == [] && images == []
      ensures this.areas == areas && this.facilityIds == facilityIds
    {
      this.houses := [];
      this.orders := [];
      this.areas := areas;
      this.images := [];
      this.facilityIds := facilityIds;
    }
  }
}

=== FILE: houses.dfy ===
// The house handlers of ihome/api_1_0/house.py other than the listing: the
// area list and the home page (both cached as one string each), the detail
// page (cached per house), publishing a house and uploading its images.

module Houses {
  import opened Base
  import opened Model
  import opened Db
  import opened KvCache
  import opened Listing
  import opened Orders

  /** Which calls raise: the cache read, the store query, the cache write-back. */
  datatype CacheFaults = CacheFaults(cacheRead: bool, db: bool, cacheWrite: bool)

  // ------------------------------------------------------------------ areas

  /** `get_areas_info` (house.py:14-52): the cached list when there is one,
      otherwise every area, written back for `areaTtl` seconds. */
  function AreasInfo(entries: Entries, areas: seq<Area>, cfg: Config, f: CacheFaults): (s: Served<Result<Payload>>)
    ensures ReadString(entries, AreaKey, f.cacheRead).Hit?
            ==> s == Served(Ok(entries[AreaKey].value), entries)
    ensures !ReadString(entries, AreaKey, f.cacheRead).Hit? && f.db ==> s == Served(Err(DBERR), entries)
    ensures !ReadString(entries, AreaKey, f.cacheRead).Hit? && !f.db ==> s.response == Ok(AreaList(areas))
    ensures s.response.Err? ==> s.response.code == DBERR
    ensures s.entries == entries || s.entries == WriteString(entries, AreaKey, cfg.areaTtl, AreaList(areas))
    // a miss answered by the store is written back unless the write raises
    ensures !ReadString(entries, AreaKey, f.cacheRead).Hit? && !f.db && !f.cacheWrite
            ==> s.entries == WriteString(entries, AreaKey, cfg.areaTtl, AreaList(areas))
    ensures f.cacheWrite ==> s.entries == entries
  {
    match ReadString(entries, AreaKey, f.cacheRead)
    case Hit(v) => Served(Ok(v), entries)
    case _ =>
      if f.db then Served(Err(DBERR), entries)
      else if f.cacheWrite then Served(Ok(AreaList(areas)), entries)
      else Served(Ok(AreaList(areas)), WriteString(entries, AreaKey, cfg.areaTtl, AreaList(areas)))
  }

  /** Once written back, the area list is answered from the cache: the same
      answer whatever the table holds by then and whether or not it can be
      read, and nothing more is written. */
  lemma AreasServedFromCache(entries: Entries, areas: seq<Area>, later: seq<Area>, cfg: Config,
                             f: CacheFaults, g: CacheFaults)
    requires !g.cacheRead
    requires AreasInfo(entries, areas, cfg, f).entries != entries
    ensures var first := AreasInfo(entries, areas, cfg, f);
            AreasInfo(first.entries, later, cfg, g) == Served(Ok(AreaList(areas)), first.entries)
  {
    var first := AreasInfo(entries, areas, cfg, f);
    assert first.entries[AreaKey] == Str(AreaList(areas), Some(cfg.areaTtl));
  }

  /** `get_areas_info` */
  method GetAreasInfo(store: Store, cache: Cache, cfg: Config, f: CacheFaults) returns (resp: Result<Payload>)
    modifies cache
    ensures var s := AreasInfo(old(cache.entries), store.areas, cfg, f);
            resp == s.response && cache.entries == s.entries
  {
    var areas := cache.Get(AreaKey, f.cacheRead);
    if areas.Hit? {
      return Ok(areas.value);
    }
    if f.db {
      return Err(DBERR);
    }
    var jsonAreas := AreaList(store.areas);
    cache.SetEx(AreaKey, cfg.areaTtl, jsonAreas, f.cacheWrite);
    resp := Ok(jsonAreas);
  }

  // -------------------------------------------------------------- home page

  /** The houses of `hs` that have an index image, in their order. */
  function WithImage(hs: seq<House>): (r: seq<House>)
    ensures forall h :: h in r <==> h in hs && h.indexImageUrl != ""
    ensures |r| <= |hs|
  {
    if hs == [] then []
    else
      var last := hs[|hs| - 1];
      var rest := WithImage(hs[..|hs| - 1]);
      assert hs == hs[..|hs| - 1] + [last];
      if last.indexImageUrl != "" then rest + [last] else rest
  }

  /** A slice of a ranked list is ranked. */
  lemma SliceKeepsRank(hs: seq<House>, sk: SortKey, lo: nat, hi: nat)
    requires RankedBy(hs, sk) && lo <= hi <= |hs|
    ensures RankedBy(hs[lo..hi], sk)
  {
    var t := hs[lo..hi];
    forall i, j | 0 <= i < j < |t| ensures Rank(sk, t[i]) <= Rank(sk, t[j]) {
      assert t[i] == hs[lo + i] && t[j] == hs[lo + j];
    }
  }

  /** Appending a house ranked after all others keeps a list ranked. */
  lemma AppendKeepsRank(r: seq<House>, x: House, sk: SortKey)
    requires RankedBy(r, sk)
    requires forall y :: y in r ==> Rank(sk, y) <= Rank(sk, x)
    ensures RankedBy(r + [x], sk)
  {
    var t := r + [x];
    forall i, j | 0 <= i < j < |t| ensures Rank(sk, t[i]) <= Rank(sk, t[j]) {
      if j == |r| {
        assert t[i] in r;
      } else {
        assert t[i] == r[i] && t[j] == r[j];
      }
    }
  }

  /** Dropping houses keeps the others in their order. */
  lemma {:induction false} WithImageKeepsRank(hs: seq<House>, sk: SortKey)
    requires RankedBy(hs, sk)
    ensures RankedBy(WithImage(hs), sk)
  {
    if hs != [] {
      var n := |hs| - 1;
      var init := hs[..n];
      SliceKeepsRank(hs, sk, 0, n);
      WithImageKeepsRank(init, sk);
      var rest := WithImage(init);
      forall x | x in rest ensures Rank(sk, x) <= Rank(sk, hs[n]) {
        var m :| 0 <= m < |init| && init[m] == x;
        assert hs[m] == x;
      }
      if hs[n].indexImageUrl != "" {
        AppendKeepsRank(rest, hs[n], sk);
      }
    }
  }

  /** The houses the home page shows: of the `max` most booked, those with
      an index image, most booked first. */
  function HomeHouses(houses: seq<House>, max: nat): seq<House>
  {
    var sorted := Ordered(houses, Booking);
    WithImage(sorted[..Min(max, |sorted|)])
  }

  /** At most `max` houses, all from the table, all with an image, most
      booked first. */
  lemma HomeHousesAreRanked(houses: seq<House>, max: nat)
    ensures var r := HomeHouses(houses, max);
            && |r| <= max
            && (forall x :: x in r ==> x in houses && x.indexImageUrl != "")
            && (forall i, j :: 0 <= i < j < |r| ==> r[i].orderCount >= r[j].orderCount)
  {
    var sorted := Ordered(houses, Booking);
    var top := sorted[..Min(max, |sorted|)];
    var r := HomeHouses(houses, max);
    forall x | x in top ensures x in houses {
      assert x in multiset(sorted);
    }
    SliceKeepsRank(sorted, Booking, 0, Min(max, |sorted|));
    assert sorted[0..Min(max, |sorted|)] == top;
    WithImageKeepsRank(top, Booking);
    forall i, j | 0 <= i < j < |r| ensures r[i].orderCount >= r[j].orderCount {
      RankedMeaning(r, Booking, i, j);
    }
  }

  /** In a list ranked by bookings, every house before position `cut` is
      booked at least as often as the house at `k >= cut`. */
  lemma TopOutranksRest(sorted: seq<House>, cut: nat, k: nat)
    requires RankedBy(sorted, Booking) && cut <= k < |sorted|
    ensures forall x :: x in sorted[..cut] ==> x.orderCount >= sorted[k].orderCount
  {
    forall x | x in sorted[..cut] ensures x.orderCount >= sorted[k].orderCount {
      var m :| 0 <= m < cut && sorted[m] == x;
      RankedMeaning(sorted, Booking, m, k);
    }
  }

  /** A house with an image is either on the home page or booked no more
      than every house on it. */
  lemma HomeShowsMostBooked(houses: seq<House>, max: nat, h: House)
    requires h in houses && h.indexImageUrl != ""
    ensures || h in HomeHouses(houses, max)
            || forall x :: x in HomeHouses(houses, max) ==> x.orderCount >= h.orderCount
  {
    var sorted := Ordered(houses, Booking);
    var cut := Min(max, |sorted|);
    var top := sorted[..cut];
    assert HomeHouses(houses, max) == WithImage(top);
    assert h in multiset(sorted);
    var k :| 0 <= k < |sorted| && sorted[k] == h;
    if k < cut {
      assert top[k] == h;
    } else {
      TopOutranksRest(sorted, cut, k);
    }
  }

  /** `get_house_index` (house.py:226-265). The query is lazy: it runs, and
      raises, in the loop outside the try, so a store failure escapes the
      handler; and a query object is always true, so the NODATA branch is
      never taken. */
  function HouseIndex(entries: Entries, houses: seq<House>, cfg: Config, f: CacheFaults): (s: Served<Result<Payload>>)
    ensures ReadString(entries, HomeKey, f.cacheRead).Hit?
            ==> s == Served(Ok(entries[HomeKey].value), entries)
    ensures !ReadString(entries, HomeKey, f.cacheRead).Hit? && f.db ==> s == Served(Err(Uncaught), entries)
    ensures !ReadString(entries, HomeKey, f.cacheRead).Hit? && !f.db
            ==> s.response == Ok(HouseList(Summaries(HomeHouses(houses, cfg.homeMaxHouses))))
    ensures s.response.Err? ==> s.response.code == Uncaught
    ensures s.entries == entries
            || s.entries == WriteString(entries, HomeKey, cfg.homeTtl, HouseList(Summaries(HomeHouses(houses, cfg.homeMaxHouses))))
    ensures !ReadString(entries, HomeKey, f.cacheRead).Hit? && !f.db && !f.cacheWrite
            ==> s.entries == WriteString(entries, HomeKey, cfg.homeTtl, HouseList(Summaries(HomeHouses(houses, cfg.homeMaxHouses))))
    ensures f.cacheWrite ==> s.entries == entries
  {
    match ReadString(entries, HomeKey, f.cacheRead)
    case Hit(v) => Served(Ok(v), entries)
    case _ =>
      if f.db then Served(Err(Uncaught), entries)
      else
        var page := HouseList(Summaries(HomeHouses(houses, cfg.homeMaxHouses)));
        if f.cacheWrite then Served(Ok(page), entries)
        else Served(Ok(page), WriteString(entries, HomeKey, cfg.homeTtl, page))
  }

  /** The loop of `get_house_index`: skip houses without an index image,
      summarise the others. */
  method ProjectWithImage(houses: seq<House>) returns (housesList: seq<Summary>)
    ensures housesList == Summaries(WithImage(houses))
  {
    housesList := [];
    for i := 0 to |houses|
      invariant housesList == Summaries(WithImage(houses[..i]))
    {
      assert houses[..i + 1][..i] == houses[..i];
      if houses[i].indexImageUrl == "" {
        continue;
      }
      SummariesAppend(WithImage(houses[..i]), houses[i]);
      housesList := housesList + [Summarize(houses[i])];
    }
    assert houses[..|houses|] == houses;
  }

  /** `get_house_index` */
  method GetHouseIndex(store: Store, cache: Cache, cfg: Config, f: CacheFaults) returns (resp: Result<Payload>)
    modifies cache
    ensures var s := HouseIndex(old(cache.entries), store.houses, cfg, f);
            resp == s.response && cache.entries == s.entries
  {
    var ret := cache.Get(HomeKey, f.cacheRead);
    if ret.Hit? {
      return Ok(ret.value);
    }
    if f.db {
      return Err(Uncaught);
    }
    var sorted := Ordered(store.houses, Booking);
    var housesList := ProjectWithImage(sorted[..Min(cfg.homeMaxHouses, |sorted|)]);
    var jsonHouses := HouseList(housesList);
    cache.SetEx(HomeKey, cfg.homeTtl, jsonHouses, f.cacheWrite);
    resp := Ok(jsonHouses);
  }

  // ---------------------------------------------------------------- detail

  datatype DetailFaults = DetailFaults(cacheRead: bool, db: bool, serialise: bool, cacheWrite: bool)

  /** `session.get("user_id", "-1")` */
  function ViewerId(viewer: Option<nat>): int
  {
    if viewer.Some? then viewer.value else -1
  }

  /** `get_house_detail` (house.py:268-311): the viewer's id, so the page can
      hide booking from the owner, and the house from the cache or the store. */
  function HouseDetailOf(entries: Entries, houses: seq<House>, houseId: nat, viewer: Option<nat>,
                         cfg: Config, f: DetailFaults): (s: Served<Result<(int, Payload)>>)
    ensures houseId == 0 ==> s == Served(Err(PARAMERR), entries)
    ensures s.response.Ok? ==> s.response.value.0 == ViewerId(viewer)
    ensures houseId != 0 && ReadString(entries, DetailKey(houseId), f.cacheRead).Hit?
            ==> s == Served(Ok((ViewerId(viewer), entries[DetailKey(houseId)].value)), entries)
    ensures (houseId != 0 && !ReadString(entries, DetailKey(houseId), f.cacheRead).Hit? && !f.db)
            ==> (s.response == Err(NODATA) <==> HouseById(houses, houseId).None?)
    ensures (houseId != 0 && !ReadString(entries, DetailKey(houseId), f.cacheRead).Hit?
             && !f.db && !f.serialise && HouseById(houses, houseId).Some?)
            ==> s.response == Ok((ViewerId(viewer), HouseDetail(houses[houseId - 1])))
    // a failed store read is DBERR, a failed serialisation DATAERR; neither writes
    ensures houseId != 0 && !ReadString(entries, DetailKey(houseId), f.cacheRead).Hit? && f.db
            ==> s == Served(Err(DBERR), entries)
    ensures (houseId != 0 && !ReadString(entries, DetailKey(houseId), f.cacheRead).Hit? && !f.db
             && HouseById(houses, houseId).Some? && f.serialise)
            ==> s == Served(Err(DATAERR), entries)
    ensures s.response.Err? ==> s.response.code in {PARAMERR, DBERR, NODATA, DATAERR}
    ensures s.entries != entries ==>
      && s.response.Ok? && 1 <= houseId <= |houses|
      && s.entries == WriteString(entries, DetailKey(houseId), cfg.detailTtl, HouseDetail(houses[houseId - 1]))
    // a house read from the store is written back unless the write raises
    ensures (houseId != 0 && !ReadString(entries, DetailKey(houseId), f.cacheRead).Hit?
             && !f.db && !f.serialise && !f.cacheWrite && HouseById(houses, houseId).Some?)
            ==> s.entries == WriteString(entries, DetailKey(houseId), cfg.detailTtl, HouseDetail(houses[houseId - 1]))
    ensures f.cacheWrite ==> s.entries == entries
  {
    if houseId == 0 then Served(Err(PARAMERR), entries)
    else match ReadString(entries, DetailKey(houseId), f.cacheRead)
      case Hit(v) => Served(Ok((ViewerId(viewer), v)), entries)
      case _ =>
        if f.db then Served(Err(DBERR), entries)
        else match HouseById(houses, houseId)
          case None => Served(Err(NODATA), entries)
          case Some(h) =>
            if f.serialise then Served(Err(DATAERR), entries)
            else if f.cacheWrite then Served(Ok((ViewerId(viewer), HouseDetail(h))), entries)
            else Served(Ok((ViewerId(viewer), HouseDetail(h))),
                        WriteString(entries, DetailKey(houseId), cfg.detailTtl, HouseDetail(h)))
  }

  /** With the cache unreachable the detail page is the store's house. */
  lemma DetailFallsThrough(entries: Entries, houses: seq<House>, houseId: nat, viewer: Option<nat>,
                           cfg: Config, f: DetailFaults)
    requires f.cacheRead && !f.db && !f.serialise
    ensures HouseDetailOf(entries, houses, houseId, viewer, cfg, f).response
            == if houseId == 0 then Err(PARAMERR)
               else if HouseById(houses, houseId).None? then Err(NODATA)
               else Ok((ViewerId(viewer), HouseDetail(houses[houseId - 1])))
  {
  }

  /** A review deletes the house's detail entry, so the next detail read
      (cache up, store readable) shows the bumped order count rather than a
      stale copy. */
  lemma DetailAfterReviewIsFresh(houses: seq<House>, orders: seq<Order>, entries: Entries,
                                 actor: nat, orderId: nat, body: CommentBody, cf: CommentFaults,
                                 viewer: Option<nat>, cfg: Config, f: DetailFaults)
    requires Consistent(houses, orders)
    requires Review(houses, orders, actor, orderId, body, cf).Ok? && !cf.cacheDelete
    requires !f.cacheRead && !f.db && !f.serialise
    ensures var h := Review(houses, orders, actor, orderId, body, cf).value.1;
            var houses' := houses[h.id - 1 := h];
            && 1 <= h.id <= |houses|
            && HouseDetailOf(AfterReview(entries, Review(houses, orders, actor, orderId, body, cf), cf),
                             houses', h.id, viewer, cfg, f).response
               == Ok((ViewerId(viewer), HouseDetail(h)))
            && h.orderCount == houses[h.id - 1].orderCount + 1
  {
    var r := Review(houses, orders, actor, orderId, body, cf);
    var o := OrderById(orders, orderId).value;
    var h := r.value.1;
    assert WellFormedOrder(orders[orderId - 1], |houses|);
    HouseByIdFinds(houses, o.houseId);
    assert h.id == o.houseId;
  }

  /** `get_house_detail` */
  method GetHouseDetail(store: Store, cache: Cache, houseId: nat, viewer: Option<nat>, cfg: Config,
                        f: DetailFaults) returns (resp: Result<(int, Payload)>)
    modifies cache
    ensures var s := HouseDetailOf(old(cache.entries), store.houses, houseId, viewer, cfg, f);
            resp == s.response && cache.entries == s.entries
  {
    var userId := ViewerId(viewer);
    if houseId == 0 {
      return Err(PARAMERR);
    }
    var ret := cache.Get(DetailKey(houseId), f.cacheRead);
    if ret.Hit? {
      return Ok((userId, ret.value));
    }
    if f.db {
      return Err(DBERR);
    }
    var house := HouseById(store.houses, houseId);
    if house.None? {
      return Err(NODATA);
    }
    if f.serialise {
      return Err(DATAERR);
    }
    var jsonHouse := HouseDetail(house.value);
    cache.SetEx(DetailKey(houseId), cfg.detailTtl, jsonHouse, f.cacheWrite);
    resp := Ok((userId, jsonHouse));
  }

  // ------------------------------------------------------------- new house

  /** The JSON body of a new house: the twelve required values as sent
      ("" when missing), price and deposit in cents after conversion
      (`None` when it raises), and the requested facility ids. */
  datatype HouseForm = HouseForm(
    title: string,
    price: string,
    areaId: string,
    address: string,
    roomCount: string,
    acreage: string,
    unit: string,
    capacity: string,
    beds: string,
    deposit: string,
    minDays: string,
    maxDays: string,
    priceCents: Option<int>,
    depositCents: Option<int>,
    facility: seq<nat>)

  /** `all((title, price, …, max_days))` */
  predicate RequiredFieldsPresent(form: HouseForm)
  {
    && form.title != "" && form.price != "" && form.areaId != "" && form.address != ""
    && form.roomCount != "" && form.acreage != "" && form.unit != "" && form.capacity != ""
    && form.beds != "" && form.deposit != "" && form.minDays != "" && form.maxDays != ""
  }

  datatype NewHouseFaults = NewHouseFaults(facilityQuery: bool, commit: bool)

  /** `save_new_house` (house.py:54-143): the house row to insert, or the errno.
      The facility query sits outside any try, so its failure escapes. */
  function NewHouse(houses: seq<House>, facilityIds: set<nat>, owner: nat, body: Option<HouseForm>,
                    now: int, f: NewHouseFaults): (r: Result<House>)
    ensures body.None? ==> r == Err(PARAMERR)
    ensures body.Some? && !RequiredFieldsPresent(body.value) ==> r == Err(PARAMERR)
    ensures (body.Some? && RequiredFieldsPresent(body.value)
             && (body.value.priceCents.None? || body.value.depositCents.None?)) ==> r == Err(PARAMERR)
    ensures r == Err(Uncaught) ==> body.value.facility != [] && f.facilityQuery
    ensures r.Err? ==> r.code in {PARAMERR, Uncaught, DBERR}
    // a complete, convertible form is saved unless a store call raises
    ensures (body.Some? && RequiredFieldsPresent(body.value)
             && body.value.priceCents.Some? && body.value.depositCents.Some?
             && !(body.value.facility != [] && f.facilityQuery) && !f.commit) ==> r.Ok?
    ensures r == Err(DBERR) ==> f.commit
    // the facility query raises outside the try and escapes; a failed commit is DBERR
    ensures (body.Some? && RequiredFieldsPresent(body.value)
             && body.value.priceCents.Some? && body.value.depositCents.Some?
             && body.value.facility != [] && f.facilityQuery) ==> r == Err(Uncaught)
    ensures (body.Some? && RequiredFieldsPresent(body.value)
             && body.value.priceCents.Some? && body.value.depositCents.Some?
             && !(body.value.facility != [] && f.facilityQuery) && f.commit) ==> r == Err(DBERR)
    // the facility query raises outside the try, so its failure never saves
    ensures r.Ok? ==> body.Some? && !(body.value.facility != [] && f.facilityQuery) && !f.commit
    ensures r.Ok? ==>
      var form := body.value;
      && RequiredFieldsPresent(form) && !f.commit
      && r.value.id == |houses| + 1 && r.value.ownerId == owner && r.value.areaId == form.areaId
      && Some(r.value.price) == form.priceCents && Some(r.value.deposit) == form.depositCents
      && r.value.title == form.title && r.value.address == form.address
      && r.value.roomCount == form.roomCount && r.value.acreage == form.acreage
      && r.value.unit == form.unit && r.value.capacity == form.capacity && r.value.beds == form.beds
      && r.value.minDays == form.minDays && r.value.maxDays == form.maxDays
      && r.value.createTime == now
      && r.value.orderCount == 0 && r.value.indexImageUrl == ""
      && (forall x :: x in r.value.facilities <==> x in form.facility && x in facilityIds)
  {
    if body.None? then Err(PARAMERR)
    else
      var form := body.value;
      if !RequiredFieldsPresent(form) then Err(PARAMERR)
      else if form.priceCents.None? || form.depositCents.None? then Err(PARAMERR)
      else if form.facility != [] && f.facilityQuery then Err(Uncaught)
      else if f.commit then Err(DBERR)
      else
        Ok(House(|houses| + 1, owner, form.areaId, form.title, form.priceCents.value, form.address,
                 form.roomCount, form.acreage, form.unit, form.capacity, form.beds,
                 form.depositCents.value, form.minDays, form.maxDays, 0, "", now,
                 (set x | x in form.facility) * facilityIds))
  }

  /** A new house lands at its id, and the tables stay consistent. */
  lemma NewHouseKeepsConsistent(houses: seq<House>, orders: seq<Order>, facilityIds: set<nat>, owner: nat,
                                body: Option<HouseForm>, now: int, f: NewHouseFaults)
    requires Consistent(houses, orders)
    requires NewHouse(houses, facilityIds, owner, body, now, f).Ok?
    ensures var h := NewHouse(houses, facilityIds, owner, body, now, f).value;
            && Consistent(houses + [h], orders)
            && HouseById(houses + [h], h.id) == Some(h)
            && (forall id :: 1 <= id <= |houses| ==> HouseById(houses + [h], id) == HouseById(houses, id))
  {
    var h := NewHouse(houses, facilityIds, owner, body, now, f).value;
    var next := houses + [h];
    assert forall i :: 0 <= i < |houses| ==> next[i] == houses[i];
    forall i | 0 <= i < |orders| ensures WellFormedOrder(orders[i], |next|) {
      assert WellFormedOrder(orders[i], |houses|);
    }
  }

  /** `save_new_house` */
  method SaveNewHouse(store: Store, owner: nat, body: Option<HouseForm>, now: int, f: NewHouseFaults)
    returns (r: Result<nat>)
    requires store.Valid()
    modifies store`houses
    ensures store.Valid()
    ensures var v := NewHouse(old(store.houses), store.facilityIds, owner, body, now, f);
      && (v.Ok? ==> r == Ok(v.value.id) && store.houses == old(store.houses) + [v.value])
      && (v.Err? ==> r == Err(v.code) && store.houses == old(store.houses))
  {
    if body.None? {
      return Err(PARAMERR);
    }
    var form := body.value;
    if !RequiredFieldsPresent(form) {
      return Err(PARAMERR);
    }
    if form.priceCents.None? || form.depositCents.None? {
      return Err(PARAMERR);
    }
    var facilities: set<nat> := {};
    if form.facility != [] {
      if f.facilityQuery {
        return Err(Uncaught);
      }
      facilities := (set x | x in form.facility) * store.facilityIds;
    } else {
      assert (set x | x in form.facility) == {};
    }
    var house := House(|store.houses| + 1, owner, form.areaId, form.title, form.priceCents.value,
                       form.address, form.roomCount, form.acreage, form.unit, form.capacity, form.beds,
                       form.depositCents.value, form.minDays, form.maxDays, 0, "", now, facilities);
    if f.commit {
      return Err(DBERR);
    }
    assert house == NewHouse(store.houses, store.facilityIds, owner, body, now, f).value;
    NewHouseKeepsConsistent(store.houses, store.orders, store.facilityIds, owner, body, now, f);
    store.houses := store.houses + [house];
    r := Ok(house.id);
  }

  // ----------------------------------------------------------- house image

  datatype ImageFaults = ImageFaults(lookup: bool, commit: bool)

  /** The answer and the tables `save_house_image` leaves behind. */
  datatype ImageSaved = ImageSaved(response: Result<string>, houses: seq<House>, images: seq<HouseImage>)

  /** `save_house_image` (house.py:146-193). `upload` is the name the image
      store returns, `None` when it raises. The upload runs before the house
      is checked, so a missing house is met only at `house.index_image_url`,
      outside any try. */
  function AddImage(houses: seq<House>, images: seq<HouseImage>, houseId: nat, hasImage: bool,
                    upload: Option<string>, cfg: Config, f: ImageFaults): (s: ImageSaved)
    ensures !hasImage ==> s.response == Err(PARAMERR)
    ensures hasImage && f.lookup ==> s.response == Err(DATAERR)
    ensures hasImage && !f.lookup && upload.None? ==> s.response == Err(THIRDERR)
    ensures hasImage && !f.lookup && upload.Some? && HouseById(houses, houseId).None? ==> s.response == Err(Uncaught)
    // an upload for an existing house is saved unless a store call raises
    ensures hasImage && !f.lookup && !f.commit && upload.Some? && HouseById(houses, houseId).Some?
            ==> s.response.Ok?
    ensures s.response == Err(DBERR) ==> f.commit
    ensures s.response.Ok? ==> !f.lookup && !f.commit
    ensures hasImage && !f.lookup && upload.Some? && HouseById(houses, houseId).Some? && f.commit
            ==> s.response == Err(DBERR)
    ensures s.response.Err? ==> s.houses == houses && s.images == images
    ensures s.response.Ok? ==>
      && upload.Some? && 1 <= houseId <= |houses|
      && s.response.value == cfg.imagePrefix + upload.value
      && s.images == images + [HouseImage(houseId, upload.value)]
      && |s.houses| == |houses|
      && (forall i :: 0 <= i < |houses| && i != houseId - 1 ==> s.houses[i] == houses[i])
      && s.houses[houseId - 1] == houses[houseId - 1].(indexImageUrl := s.houses[houseId - 1].indexImageUrl)
      && s.houses[houseId - 1].indexImageUrl
         == if houses[houseId - 1].indexImageUrl == "" then upload.value else houses[houseId - 1].indexImageUrl
  {
    if !hasImage then ImageSaved(Err(PARAMERR), houses, images)
    else if f.lookup then ImageSaved(Err(DATAERR), houses, images)
    else if upload.None? then ImageSaved(Err(THIRDERR), houses, images)
    else match HouseById(houses, houseId)
      case None => ImageSaved(Err(Uncaught), houses, images)
      case Some(h) =>
        if f.commit then ImageSaved(Err(DBERR), houses, images)
        else
          var name := upload.value;
          var h' := if h.indexImageUrl == "" then h.(indexImageUrl := name) else h;
          ImageSaved(Ok(cfg.imagePrefix + name), houses[houseId - 1 := h'], images + [HouseImage(houseId, name)])
  }

  /** The first image uploaded for a house becomes its index image and later
      uploads never replace it; every upload is kept. */
  lemma FirstImageWins(houses: seq<House>, images: seq<HouseImage>, houseId: nat, cfg: Config,
                       first: string, second: string, f: ImageFaults, g: ImageFaults)
    requires 1 <= houseId <= |houses| && houses[houseId - 1].indexImageUrl == ""
    requires first != ""
    requires AddImage(houses, images, houseId, true, Some(first), cfg, f).response.Ok?
    ensures var one := AddImage(houses, images, houseId, true, Some(first), cfg, f);
            var two := AddImage(one.houses, one.images, houseId, true, Some(second), cfg, g);
            && one.houses[houseId - 1].indexImageUrl == first
            && two.houses[houseId - 1].indexImageUrl == first
            && (two.response.Ok? ==> two.images == images + [HouseImage(houseId, first), HouseImage(houseId, second)])
  {
  }

  /** Uploading an image changes nothing a booking depends on. */
  lemma ImageKeepsConsistent(houses: seq<House>, orders: seq<Order>, images: seq<HouseImage>, houseId: nat,
                             hasImage: bool, upload: Option<string>, cfg: Config, f: ImageFaults)
    requires Consistent(houses, orders)
    ensures Consistent(AddImage(houses, images, houseId, hasImage, upload, cfg, f).houses, orders)
  {
    var s := AddImage(houses, images, houseId, hasImage, upload, cfg, f);
    if s.response.Ok? {
      forall i | 0 <= i < |s.houses| ensures s.houses[i].id == i + 1 {
        assert HouseIdsInPlace(houses);
      }
      forall i | 0 <= i < |orders| ensures WellFormedOrder(orders[i], |s.houses|) {
        assert WellFormedOrder(orders[i], |houses|);
      }
    }
  }

  /** `save_house_image` */
  method SaveHouseImage(store: Store, houseId: nat, hasImage: bool, upload: Option<string>, cfg: Config,
                        f: ImageFaults) returns (resp: Result<string>)
    requires store.Valid()
    modifies store`houses, store`images
    ensures store.Valid()
    ensures var s := AddImage(old(store.houses), old(store.images), houseId, hasImage, upload, cfg, f);
            resp == s.response && store.houses == s.houses && store.images == s.images
  {
    if !hasImage {
      return Err(PARAMERR);
    }
    if f.lookup {
      return Err(DATAERR);
    }
    var house := HouseById(store.houses, houseId);
    if upload.None? {
      return Err(THIRDERR);
    }
    var imageName := upload.value;
    var houseImage := HouseImage(houseId, imageName);
    if house.None? {
      return Err(Uncaught);
    }
    var h := house.value;
    if h.indexImageUrl == "" {
      h := h.(indexImageUrl := imageName);
    }
    if f.commit {
      return Err(DBERR);
    }
    ImageKeepsConsistent(store.houses, store.orders, store.images, houseId, hasImage, upload, cfg, f);
    store.images := store.images + [houseImage];
    store.houses := store.houses[houseId - 1 := h];
    resp := Ok(cfg.imagePrefix + imageName);
  }
}

=== FILE: kvcache.dfy ===
// The Redis cache the handlers use as a read-through accelerator: a map from
// key to a string value (GET/SETEX) or a hash (HGET/HSET), each with an
// optional time to live. An entry whose TTL elapsed is simply absent from the
// map; the clock is not modelled. Every command takes a `down` flag that
// stands for the exception redis-py raises when the server cannot be reached.

module KvCache {
  import opened Base
  import opened Model

  /** What the handlers serialise with `json.dumps`, store and answer with.
      JSON text itself is not modelled: a payload stands for its encoding. */
  datatype Payload =
    | AreaList(areas: seq<Area>)
    | HouseList(houses: seq<Summary>)
    | HouseDetail(house: House)
    | ListPage(houses: seq<Summary>, totalPage: nat, currentPage: int)

  /** `ttl == None` is a key without expiry, which Redis never evicts. */
  datatype Entry =
    | Str(value: Payload, ttl: Option<nat>)
    | Hash(fields: map<int, Payload>, ttl: Option<nat>)

  type Entries = map<string, Entry>

  /** A read either finds a value, finds nothing, or raises: the server is
      down, or the key holds the other kind of value (WRONGTYPE). */
  datatype Read = Hit(value: Payload) | Miss | Failed

  /** A handler's answer together with the cache it leaves behind. */
  datatype Served<+R> = Served(response: R, entries: Entries)

  /** Keys written by the handlers. */
  const AreaKey: string := "area_info"
  const HomeKey: string := "home_page_data"

  /** `"house_info_%s" % house_id` */
  function DetailKey(houseId: nat): string
  {
    "house_info_" + NatToString(houseId)
  }

  /** `"houses_%s_%s_%s_%s" % (aid, sd, ed, sk)`, with the raw query strings. */
  function ListingKey(aid: string, sd: string, ed: string, sk: string): string
  {
    "houses_" + aid + "_" + sd + "_" + ed + "_" + sk
  }

  /** Deleting one house's detail entry never touches another house's. */
  lemma DetailKeysDistinct(a: nat, b: nat)
    requires a != b
    ensures DetailKey(a) != DetailKey(b)
  {
    if DetailKey(a) == DetailKey(b) {
      var p := "house_info_";
      assert NatToString(a) == DetailKey(a)[|p|..] == DetailKey(b)[|p|..] == NatToString(b);
      NatToStringInjective(a, b);
    }
  }

  /** The four key families never collide: each handler only ever meets its
      own kind of entry. */
  lemma KeyFamiliesDisjoint(id: nat, aid: string, sd: string, ed: string, sk: string)
    ensures DetailKey(id) != ListingKey(aid, sd, ed, sk)
    ensures DetailKey(id) != AreaKey && DetailKey(id) != HomeKey
    ensures ListingKey(aid, sd, ed, sk) != AreaKey && ListingKey(aid, sd, ed, sk) != HomeKey
  {
    assert DetailKey(id)[5] == '_' && ListingKey(aid, sd, ed, sk)[5] == 's';
    assert AreaKey[0] == 'a' && HomeKey[0] == 'h' && ListingKey(aid, sd, ed, sk)[4] == 'e';
    assert |AreaKey| < 11 <= |DetailKey(id)|;
    assert HomeKey[4] == '_' && DetailKey(id)[4] == 'e';
  }

  /** GET */
  function ReadString(entries: Entries, key: string, down: bool): (r: Read)
    ensures r.Hit? <==> !down && key in entries && entries[key].Str?
    ensures r.Hit? ==> r.value == entries[key].value
    ensures r.Miss? <==> !down && key !in entries
  {
    if down then Failed
    else if key !in entries then Miss
    else match entries[key]
      case Str(v, _) => Hit(v)
      case Hash(_, _) => Failed
  }

  /** HGET */
  function ReadField(entries: Entries, key: string, field: int, down: bool): (r: Read)
    ensures r.Hit? <==> !down && key in entries && entries[key].Hash? && field in entries[key].fields
    ensures r.Hit? ==> r.value == entries[key].fields[field]
  {
    if down then Failed
    else if key !in entries then Miss
    else match entries[key]
      case Hash(fs, _) => if field in fs then Hit(fs[field]) else Miss
      case Str(_, _) => Failed
  }

  /** SETEX: value and expiry in one command. */
  function WriteString(entries: Entries, key: string, ttl: nat, v: Payload): Entries
  {
    entries[key := Str(v, Some(ttl))]
  }

  /** MULTI; HSET key field v; EXPIRE key ttl; EXEC. Redis runs both queued
      commands; on a key holding a string HSET fails with WRONGTYPE while
      EXPIRE still applies. */
  function WriteField(entries: Entries, key: string, field: int, v: Payload, ttl: nat): Entries
  {
    if key in entries && entries[key].Str? then entries[key := Str(entries[key].value, Some(ttl))]
    else
      var fields := if key in entries then entries[key].fields else map[];
      entries[key := Hash(fields[field := v], Some(ttl))]
  }

  /** Every entry carries an expiry, so stale data is bounded by its TTL. */
  ghost predicate AllExpire(entries: Entries)
  {
    forall k :: k in entries ==> entries[k].ttl.Some?
  }

  /** Both writes keep every entry expiring: the value and its TTL are set
      together, never one without the other. A written field reads back. */
  lemma WritesKeepExpiry(entries: Entries, key: string, field: int, v: Payload, ttl: nat)
    ensures AllExpire(entries) ==> AllExpire(WriteString(entries, key, ttl, v))
    ensures AllExpire(entries) ==> AllExpire(WriteField(entries, key, field, v, ttl))
    ensures AllExpire(entries) ==> AllExpire(entries - {key})
    ensures ReadString(WriteString(entries, key, ttl, v), key, false) == Hit(v)
    ensures !(key in entries && entries[key].Str?)
            ==> ReadField(WriteField(entries, key, field, v, ttl), key, field, false) == Hit(v)
  {
  }

  class Cache {
    var entries: Entries

    constructor ()
      ensures entries == map[]
    {
      entries := map[];
    }

    method Get(key: string, down: bool) returns (r: Read)
      ensures r == ReadString(entries, key, down)
    {
      if down {
        r := Failed;
      } else if key !in entries {
        r := Miss;
      } else if entries[key].Str? {
        r := Hit(entries[key].value);
      } else {
        r := Failed;
      }
    }

    method HGet(key: string, field: int, down: bool) returns (r: Read)
      ensures r == ReadField(entries, key, field, down)
    {
      if down {
        r := Failed;
      } else if key !in entries {
        r := Miss;
      } else if entries[key].Hash? {
        r := if field in entries[key].fields then Hit(entries[key].fields[field]) else Miss;
      } else {
        r := Failed;
      }
    }

    /** SETEX; when the server is down the exception leaves the cache as it was. */
    method SetEx(key: string, ttl: nat, v: Payload, down: bool)
      modifies this
      ensures entries == if down then old(entries) else WriteString(old(entries), key, ttl, v)
    {
      if !down {
        entries := entries[key := Str(v, Some(ttl))];
      }
    }

    /** A transactional pipeline: nothing is sent before EXEC, so a failure
        applies neither command. */
    method PipelineHSetExpire(key: string, field: int, v: Payload, ttl: nat, down: bool)
      modifies this
      ensures entries == if down then old(entries) else WriteField(old(entries), key, field, v, ttl)
    {
      if !down {
        if key in entries && entries[key].Str? {
          entries := entries[key := Str(entries[key].value, Some(ttl))];
        } else {
          var fields := if key in entries then entries[key].fields else map[];
          entries := entries[key := Hash(fields[field := v], Some(ttl))];
        }
      }
    }

    /** DEL */
    method Delete(key: string, down: bool)
      modifies this
      ensures entries == if down then old(entries) else old(entries) - {key}
    {
      if !down {
        entries := entries - {key};
      }
    }
  }
}

=== FILE: listing.dfy ===
// The listing query of get_houses_list (ihome/api_1_0/house.py:314-421):
// validate the dates and the page, try the page in the cache, otherwise filter
// the houses by area and availability, sort them by the requested key, cut
// out the page, and write the page back into a per-query hash.

module Listing {
  import opened Base
  import opened Model
  import opened Availability
  import opened Sorting
  import opened KvCache
  import opened Db

  /** The query string: `aid`, `sd`, `ed`, `sk` as sent ("" when absent,
      `sk` "new" by default) and `p` after `int()`, `None` when it raises. */
  datatype ListRequest = ListRequest(aid: string, sd: DateArg, ed: DateArg, sk: string, page: Option<int>)

  /** Which calls raise: the cache read, any store query, the cache write-back. */
  datatype ListFaults = ListFaults(cacheRead: bool, db: bool, cacheWrite: bool)

  // ------------------------------------------------------------ validation

  /** The window the parsed dates describe. */
  function WindowOf(req: ListRequest): Window
    requires req.sd.raw != "" ==> req.sd.day.Some?
    requires req.ed.raw != "" ==> req.ed.day.Some?
  {
    if req.sd.raw != "" && req.ed.raw != "" then Between(req.sd.day.value, req.ed.day.value)
    else if req.sd.raw != "" then From(req.sd.day.value)
    else if req.ed.raw != "" then Until(req.ed.day.value)
    else Unbounded
  }

  /** `w` is the window of exactly the dates the request gives. */
  predicate WindowFits(w: Window, req: ListRequest)
  {
    match w
    case Between(s, e) =>
      req.sd.raw != "" && req.ed.raw != "" && req.sd.day == Some(s) && req.ed.day == Some(e) && s <= e
    case From(s) => req.sd.raw != "" && req.ed.raw == "" && req.sd.day == Some(s)
    case Until(e) => req.sd.raw == "" && req.ed.raw != "" && req.ed.day == Some(e)
    case Unbounded => req.sd.raw == "" && req.ed.raw == ""
  }

  /** The argument checks of house.py:324-343, run before the cache or the
      store is touched. */
  function ParseListing(req: ListRequest): (r: Result<(Window, int)>)
    ensures req.sd.raw != "" && req.sd.day.None? ==> r == Err(PARAMERR)
    ensures req.ed.raw != "" && req.ed.day.None? ==> r == Err(PARAMERR)
    ensures (req.sd.raw != "" && req.ed.raw != "" && req.sd.day.Some? && req.ed.day.Some?
             && req.sd.day.value > req.ed.day.value) ==> r == Err(PARAMERR)
    ensures req.page.None? ==> r == Err(PARAMERR)
    ensures r.Err? ==> r.code == PARAMERR
    // arguments that pass every check are accepted
    ensures ((req.sd.raw == "" || req.sd.day.Some?) && (req.ed.raw == "" || req.ed.day.Some?)
             && !(req.sd.raw != "" && req.ed.raw != "" && req.sd.day.value > req.ed.day.value)
             && req.page.Some?) ==> r.Ok?
    ensures r.Ok? ==> req.page == Some(r.value.1) && WindowFits(r.value.0, req)
  {
    if (req.sd.raw != "" && req.sd.day.None?) || (req.ed.raw != "" && req.ed.day.None?) then Err(PARAMERR)
    else if req.sd.raw != "" && req.ed.raw != "" && req.sd.day.value > req.ed.day.value then Err(PARAMERR)
    else if req.page.None? then Err(PARAMERR)
    else Ok((WindowOf(req), req.page.value))
  }

  // ------------------------------------------------------------- filtering

  /** `House.area_id == aid`, applied only when `aid` is non-empty. */
  predicate InArea(h: House, aid: string)
  {
    aid == "" || h.areaId == aid
  }

  /** `House.query.filter(*filter_params)`: the houses in the area whose id is
      not excluded, in table order. */
  function Admitted(houses: seq<House>, aid: string, excluded: set<nat>): (r: seq<House>)
    ensures forall h :: h in r <==> h in houses && InArea(h, aid) && h.id !in excluded
    ensures multiset(r) <= multiset(houses)
  {
    if houses == [] then []
    else
      var rest := Admitted(houses[1..], aid, excluded);
      assert houses == [houses[0]] + houses[1..];
      if InArea(houses[0], aid) && houses[0].id !in excluded then [houses[0]] + rest else rest
  }

  /** The houses a listing may show: in the area, and with no order
      conflicting with the window. */
  ghost function Eligible(houses: seq<House>, orders: seq<Order>, aid: string, w: Window): seq<House>
  {
    Admitted(houses, aid, ConflictHouses(orders, w))
  }

  // --------------------------------------------------------------- sorting

  /** The four orders a listing can be asked for. */
  datatype SortKey = Booking | PriceInc | PriceDes | Newest

  /** `sk` as the query chain reads it: any unknown value sorts newest first. */
  function SortKeyOf(sk: string): (k: SortKey)
    ensures k == Booking <==> sk == "booking"
    ensures k == PriceInc <==> sk == "price-inc"
    ensures k == PriceDes <==> sk == "price-des"
  {
    if sk == "booking" then Booking
    else if sk == "price-inc" then PriceInc
    else if sk == "price-des" then PriceDes
    else Newest
  }

  /** The ascending sort key that realises each ORDER BY. */
  function Rank(sk: SortKey, h: House): int
  {
    match sk
    case Booking => -h.orderCount
    case PriceInc => h.price
    case PriceDes => -h.price
    case Newest => -h.createTime
  }

  /** `hs` is in the order `sk` selects. */
  predicate RankedBy(hs: seq<House>, sk: SortKey)
  {
    forall i, j :: 0 <= i < j < |hs| ==> Rank(sk, hs[i]) <= Rank(sk, hs[j])
  }

  /** What each sort key means: most booked first, cheapest first, dearest
      first, or (any other key) newest first. */
  lemma RankedMeaning(hs: seq<House>, sk: SortKey, i: int, j: int)
    requires RankedBy(hs, sk) && 0 <= i < j < |hs|
    ensures sk == Booking ==> hs[i].orderCount >= hs[j].orderCount
    ensures sk == PriceInc ==> hs[i].price <= hs[j].price
    ensures sk == PriceDes ==> hs[i].price >= hs[j].price
    ensures sk == Newest ==> hs[i].createTime >= hs[j].createTime
  {
    assert Rank(sk, hs[i]) <= Rank(sk, hs[j]);
  }

  /** The houses in the order `sk` selects, each kept exactly once. */
  function Ordered(hs: seq<House>, sk: SortKey): (r: seq<House>)
    ensures multiset(r) == multiset(hs)
    ensures RankedBy(r, sk)
  {
    var key := (h: House) => Rank(sk, h);
    var r := SortBy(hs, key);
    assert SortedBy(r, key);
    r
  }

  // ------------------------------------------------------------ pagination

  /** Rows skipped before page `page`; a page below 1 reads as page 1. */
  function Offset(page: int, cap: nat): nat
  {
    (if page < 1 then 0 else page - 1) * cap
  }

  /** `Pagination.pages`: ceil(count / cap), 0 when the page size is 0. */
  function TotalPages(count: nat, cap: nat): nat
  {
    if cap == 0 then 0 else (count + cap - 1) / cap
  }

  /** `TotalPages` is the least number of pages of `cap` rows that hold
      `count` rows. */
  lemma TotalPagesIsCeiling(count: nat, cap: nat)
    ensures cap == 0 ==> TotalPages(count, cap) == 0
    ensures cap > 0 ==> count <= TotalPages(count, cap) * cap
    ensures cap > 0 && TotalPages(count, cap) > 0 ==> (TotalPages(count, cap) - 1) * cap < count
  {
    if cap > 0 {
      var n := (count + cap - 1) / cap;
      assert n * cap <= count + cap - 1 < (n + 1) * cap;
    }
  }

  function Min(a: int, b: int): int
  {
    if a < b then a else b
  }

  /** `paginate(page, cap, False).items`: at most `cap` rows from the
      page's offset on; a page past the end is empty, not an error. */
  function PageOf<T>(s: seq<T>, page: int, cap: nat): (r: seq<T>)
    ensures |r| <= cap
    ensures forall k :: 0 <= k < |r| ==> Offset(page, cap) + k < |s| && r[k] == s[Offset(page, cap) + k]
  {
    var lo := Offset(page, cap);
    if lo >= |s| then [] else s[lo .. Min(lo + cap, |s|)]
  }

  /** Pages 1 to n, one after the other. */
  function Pages<T>(s: seq<T>, n: nat, cap: nat): seq<T>
  {
    if n == 0 then [] else Pages(s, n - 1, cap) + PageOf(s, n, cap)
  }

  lemma {:induction false} PagesArePrefix<T>(s: seq<T>, n: nat, cap: nat)
    ensures Pages(s, n, cap) == s[..Min(n * cap, |s|)]
  {
    if n > 0 {
      PagesArePrefix(s, n - 1, cap);
      var lo := (n - 1) * cap;
      assert Offset(n, cap) == lo;
      MulSucc(n - 1, cap);
      if lo < |s| {
        assert s[..lo] + s[lo .. Min(lo + cap, |s|)] == s[..Min(lo + cap, |s|)];
      }
    }
  }

  /** Pages 1 to `TotalPages` hold every row exactly once and in order; the
      last of them is not empty. */
  lemma PagesTileTheList<T>(s: seq<T>, cap: nat)
    requires cap > 0
    ensures Pages(s, TotalPages(|s|, cap), cap) == s
    ensures TotalPages(|s|, cap) > 0 ==> PageOf(s, TotalPages(|s|, cap), cap) != []
  {
    var n := TotalPages(|s|, cap);
    TotalPagesIsCeiling(|s|, cap);
    PagesArePrefix(s, n, cap);
    assert s[..|s|] == s;
    if n > 0 {
      assert Offset(n, cap) == (n - 1) * cap < |s|;
      assert PageOf(s, n, cap)[0] == s[(n - 1) * cap];
    }
  }

  lemma MulSucc(k: nat, cap: nat)
    ensures (k + 1) * cap == k * cap + cap
  {
  }

  lemma MulMonotone(a: nat, b: nat, c: nat)
    requires a <= b
    ensures a * c <= b * c
  {
  }

  /** A page past the last one is empty. */
  lemma PastLastPageEmpty<T>(s: seq<T>, page: int, cap: nat)
    requires page > TotalPages(|s|, cap)
    ensures PageOf(s, page, cap) == []
  {
    if cap > 0 {
      var n := TotalPages(|s|, cap);
      TotalPagesIsCeiling(|s|, cap);
      MulMonotone(n, page - 1, cap);
      assert Offset(page, cap) == (page - 1) * cap >= |s|;
    }
  }

  // -------------------------------------------------------------- the page

  function Summaries(hs: seq<House>): (r: seq<Summary>)
    ensures |r| == |hs| && forall k :: 0 <= k < |hs| ==> r[k] == Summarize(hs[k])
  {
    seq(|hs|, i requires 0 <= i < |hs| => Summarize(hs[i]))
  }

  lemma SummariesAppend(hs: seq<House>, h: House)
    ensures Summaries(hs + [h]) == Summaries(hs) + [Summarize(h)]
  {
  }

  /** The houses on page `page` of the listing, before projection. */
  ghost function PlanItems(houses: seq<House>, orders: seq<Order>, req: ListRequest, w: Window,
                           page: int, cap: nat): seq<House>
  {
    PageOf(Ordered(Eligible(houses, orders, req.aid, w), SortKeyOf(req.sk)), page, cap)
  }

  /** The page the store answers with (house.py:358-405). */
  ghost function Plan(houses: seq<House>, orders: seq<Order>, req: ListRequest, w: Window,
                      page: int, cap: nat): (p: Payload)
    ensures p.ListPage? && p.currentPage == page && |p.houses| <= cap
    ensures p.totalPage == TotalPages(|Eligible(houses, orders, req.aid, w)|, cap)
  {
    var items := PlanItems(houses, orders, req, w, page, cap);
    ListPage(Summaries(items), TotalPages(|Eligible(houses, orders, req.aid, w)|, cap), page)
  }

  /** Every house on a page is in the requested area and has no order
      conflicting with the requested dates. */
  lemma PlanShowsOnlyEligible(houses: seq<House>, orders: seq<Order>, req: ListRequest, w: Window,
                              page: int, cap: nat, k: int)
    requires 0 <= k < |Plan(houses, orders, req, w, page, cap).houses|
    ensures exists h :: h in houses && InArea(h, req.aid) && h.id !in ConflictHouses(orders, w)
                        && Plan(houses, orders, req, w, page, cap).houses[k] == Summarize(h)
  {
    var eligible := Eligible(houses, orders, req.aid, w);
    var sorted := Ordered(eligible, SortKeyOf(req.sk));
    var items := PlanItems(houses, orders, req, w, page, cap);
    var h := items[k];
    assert h == sorted[Offset(page, cap) + k];
    assert h in multiset(sorted);
    assert h in eligible;
  }

  /** A page is a window of a ranked list, hence ranked itself. */
  lemma PageKeepsRank(hs: seq<House>, sk: SortKey, page: int, cap: nat)
    requires RankedBy(hs, sk)
    ensures RankedBy(PageOf(hs, page, cap), sk)
  {
    var r := PageOf(hs, page, cap);
    var lo := Offset(page, cap);
    forall i, j | 0 <= i < j < |r| ensures Rank(sk, r[i]) <= Rank(sk, r[j]) {
      assert r[i] == hs[lo + i] && r[j] == hs[lo + j];
    }
  }

  /** The houses on a page follow the order `sk` asks for. */
  lemma PlanFollowsSortKey(houses: seq<House>, orders: seq<Order>, req: ListRequest, w: Window,
                           page: int, cap: nat, i: int, j: int)
    requires 0 <= i < j < |Plan(houses, orders, req, w, page, cap).houses|
    ensures var p := Plan(houses, orders, req, w, page, cap).houses;
            && (req.sk == "booking" ==> p[i].orderCount >= p[j].orderCount)
            && (req.sk == "price-inc" ==> p[i].price <= p[j].price)
            && (req.sk == "price-des" ==> p[i].price >= p[j].price)
            && (SortKeyOf(req.sk) == Newest ==> p[i].createTime >= p[j].createTime)
  {
    var sk := SortKeyOf(req.sk);
    var items := PlanItems(houses, orders, req, w, page, cap);
    PageKeepsRank(Ordered(Eligible(houses, orders, req.aid, w), sk), sk, page, cap);
    RankedMeaning(items, sk, i, j);
  }

  /** What the store alone answers, with no cache in front of it. */
  ghost function DirectListing(houses: seq<House>, orders: seq<Order>, req: ListRequest,
                               cfg: Config, dbFails: bool): Result<Payload>
  {
    match ParseListing(req)
    case Err(c) => Err(c)
    case Ok((w, page)) =>
      if dbFails then Err(DBERR) else Ok(Plan(houses, orders, req, w, page, cfg.listCapacity))
  }

  /** The hash a query's pages are cached under, keyed by the raw arguments. */
  function ListingKeyOf(req: ListRequest): string
  {
    ListingKey(req.aid, req.sd.raw, req.ed.raw, req.sk)
  }

  /** The miss path: query the store, then write the page back when it lies
      within range and the pipeline does not raise. */
  ghost function FillListing(entries: Entries, houses: seq<House>, orders: seq<Order>, req: ListRequest,
                             w: Window, page: int, cfg: Config, f: ListFaults): (s: Served<Result<Payload>>)
    ensures AllExpire(entries) ==> AllExpire(s.entries)
    ensures f.db ==> s == Served(Err(DBERR), entries)
    ensures f.cacheWrite ==> s.entries == entries
    ensures !f.db ==> s.response == Ok(Plan(houses, orders, req, w, page, cfg.listCapacity))
    // the page is written back exactly when it lies within range and the write succeeds
    ensures !f.db && !f.cacheWrite && page <= Plan(houses, orders, req, w, page, cfg.listCapacity).totalPage
            ==> s.entries == WriteField(entries, ListingKeyOf(req), page,
                                        Plan(houses, orders, req, w, page, cfg.listCapacity), cfg.homeTtl)
    ensures page > Plan(houses, orders, req, w, page, cfg.listCapacity).totalPage ==> s.entries == entries
  {
    if f.db then Served(Err(DBERR), entries)
    else
      var p := Plan(houses, orders, req, w, page, cfg.listCapacity);
      WritesKeepExpiry(entries, ListingKeyOf(req), page, p, cfg.homeTtl);
      if page <= p.totalPage && !f.cacheWrite
      then Served(Ok(p), WriteField(entries, ListingKeyOf(req), page, p, cfg.homeTtl))
      else Served(Ok(p), entries)
  }

  /** `get_houses_list` as a whole: the answer and the cache it leaves. */
  ghost function ListHouses(entries: Entries, houses: seq<House>, orders: seq<Order>,
                            req: ListRequest, cfg: Config, f: ListFaults): (s: Served<Result<Payload>>)
    ensures AllExpire(entries) ==> AllExpire(s.entries)
    // a failed write-back leaves the cache as it was
    ensures f.cacheWrite ==> s.entries == entries
    // a store failure on a miss is DBERR and writes nothing
    ensures ParseListing(req).Ok?
            && !ReadField(entries, ListingKeyOf(req), ParseListing(req).value.1, f.cacheRead).Hit? && f.db
            ==> s == Served(Err(DBERR), entries)
  {
    match ParseListing(req)
    case Err(c) => Served(Err(c), entries)
    case Ok((w, page)) =>
      match ReadField(entries, ListingKeyOf(req), page, f.cacheRead)
      case Hit(v) => Served(Ok(v), entries)
      case _ => FillListing(entries, houses, orders, req, w, page, cfg, f)
  }

  /** Invalid arguments are answered before the cache or the store is touched. */
  lemma ListingRejectsBadArguments(entries: Entries, houses: seq<House>, orders: seq<Order>,
                                   req: ListRequest, cfg: Config, f: ListFaults)
    requires ParseListing(req).Err?
    ensures ListHouses(entries, houses, orders, req, cfg, f) == Served(Err(PARAMERR), entries)
  {
  }

  /** A cached page is answered verbatim and nothing is written. */
  lemma ListingHitIsVerbatim(entries: Entries, houses: seq<House>, orders: seq<Order>,
                             req: ListRequest, cfg: Config, f: ListFaults)
    requires ParseListing(req).Ok?
    requires ReadField(entries, ListingKeyOf(req), ParseListing(req).value.1, f.cacheRead).Hit?
    ensures ListHouses(entries, houses, orders, req, cfg, f)
            == Served(Ok(entries[ListingKeyOf(req)].fields[ParseListing(req).value.1]), entries)
  {
  }

  /** The only errors are PARAMERR and DBERR, and the cache changes only by
      writing a page within range under the query's own key. */
  lemma ListingWritesOnlyInRange(entries: Entries, houses: seq<House>, orders: seq<Order>,
                                 req: ListRequest, cfg: Config, f: ListFaults)
    ensures var s := ListHouses(entries, houses, orders, req, cfg, f);
            && (s.response.Err? ==> s.response.code == PARAMERR || s.response.code == DBERR)
            && (s.entries != entries ==>
                  && ParseListing(req).Ok? && s.response.Ok? && s.response.value.ListPage?
                  && ParseListing(req).value.1 <= s.response.value.totalPage
                  && s.entries == WriteField(entries, ListingKeyOf(req), ParseListing(req).value.1,
                                             s.response.value, cfg.homeTtl))
  {
    match ParseListing(req)
    case Err(_) =>
    case Ok((w, page)) =>
      if !ReadField(entries, ListingKeyOf(req), page, f.cacheRead).Hit? && !f.db {
        var p := Plan(houses, orders, req, w, page, cfg.listCapacity);
        assert ListHouses(entries, houses, orders, req, cfg, f)
               == FillListing(entries, houses, orders, req, w, page, cfg, f);
      }
  }

  /** A parsed request that misses the cache, with no store or write fault,
      answers the store's page and, when that page lies within range, writes
      it back under the query's own key. */
  lemma ListingMissWritesBack(entries: Entries, houses: seq<House>, orders: seq<Order>,
                              req: ListRequest, cfg: Config, f: ListFaults)
    requires ParseListing(req).Ok?
    requires !ReadField(entries, ListingKeyOf(req), ParseListing(req).value.1, f.cacheRead).Hit?
    requires !f.db && !f.cacheWrite
    ensures var (w, page) := ParseListing(req).value;
            var p := Plan(houses, orders, req, w, page, cfg.listCapacity);
            var s := ListHouses(entries, houses, orders, req, cfg, f);
            && s.response == Ok(p)
            && s.entries == if page <= p.totalPage then WriteField(entries, ListingKeyOf(req), page, p, cfg.homeTtl)
                            else entries
  {
    var (w, page) := ParseListing(req).value;
    assert ListHouses(entries, houses, orders, req, cfg, f)
           == FillListing(entries, houses, orders, req, w, page, cfg, f);
  }

  /** With the cache unreachable the listing answers exactly what the store
      alone answers. */
  lemma ListingFallsThrough(entries: Entries, houses: seq<House>, orders: seq<Order>,
                            req: ListRequest, cfg: Config, f: ListFaults)
    requires f.cacheRead
    ensures ListHouses(entries, houses, orders, req, cfg, f).response
            == DirectListing(houses, orders, req, cfg, f.db)
  {
  }

  /** A failed write-back never changes the answer. */
  lemma ListingWriteFailureInvisible(entries: Entries, houses: seq<House>, orders: seq<Order>,
                                     req: ListRequest, cfg: Config, f: ListFaults)
    ensures ListHouses(entries, houses, orders, req, cfg, f).response
            == ListHouses(entries, houses, orders, req, cfg, f.(cacheWrite := !f.cacheWrite)).response
  {
  }

  /** Asking twice: once a page has been written back, the same request is
      served from the cache with the same answer, and nothing more is
      written. (Only listings write under a listing key, so it never holds a
      string value.) */
  lemma ListingRepeatIsCached(entries: Entries, houses: seq<House>, orders: seq<Order>,
                              req: ListRequest, cfg: Config, f: ListFaults, g: ListFaults)
    requires ListingKeyOf(req) in entries ==> entries[ListingKeyOf(req)].Hash?
    requires !g.cacheRead
    requires ListHouses(entries, houses, orders, req, cfg, f).entries != entries
    ensures var first := ListHouses(entries, houses, orders, req, cfg, f);
            ListHouses(first.entries, houses, orders, req, cfg, g) == Served(first.response, first.entries)
  {
    var first := ListHouses(entries, houses, orders, req, cfg, f);
    ListingWritesOnlyInRange(entries, houses, orders, req, cfg, f);
    var page := ParseListing(req).value.1;
    var key := ListingKeyOf(req);
    WritesKeepExpiry(entries, key, page, first.response.value, cfg.homeTtl);
    assert ReadField(first.entries, key, page, false) == Hit(first.response.value);
    ListingHitIsVerbatim(first.entries, houses, orders, req, cfg, g);
  }

  /** The store half of `get_houses_list`: the conflicting houses, the
      filtered and sorted query, the page and its projection. */
  method QueryPage(houses: seq<House>, orders: seq<Order>, req: ListRequest, w: Window, page: int, cap: nat)
    returns (p: Payload)
    ensures p == Plan(houses, orders, req, w, page, cap)
  {
    var excluded: set<nat> := {};
    if !w.Unbounded? {
      var conflictIds := CollectConflictHouseIds(orders, w);
      if conflictIds != [] {
        excluded := set x | x in conflictIds;
      }
    }
    assert excluded == ConflictHouses(orders, w);
    var sorted := Ordered(Admitted(houses, req.aid, excluded), SortKeyOf(req.sk));
    var list := Project(PageOf(sorted, page, cap));
    p := ListPage(list, TotalPages(|sorted|, cap), page);
  }

  /** `[house.to_basic_dict() for house in page_houses]` */
  method Project(items: seq<House>) returns (list: seq<Summary>)
    ensures list == Summaries(items)
  {
    list := [];
    for i := 0 to |items|
      invariant list == Summaries(items[..i])
    {
      assert items[..i + 1] == items[..i] + [items[i]];
      SummariesAppend(items[..i], items[i]);
      list := list + [Summarize(items[i])];
    }
    assert items[..|items|] == items;
  }

  /** `get_houses_list`. */
  method GetHousesList(store: Store, cache: Cache, req: ListRequest, cfg: Config, f: ListFaults)
    returns (resp: Result<Payload>)
    modifies cache
    ensures var s := ListHouses(old(cache.entries), store.houses, store.orders, req, cfg, f);
            resp == s.response && cache.entries == s.entries
  {
    // dates and page
    if (req.sd.raw != "" && req.sd.day.None?) || (req.ed.raw != "" && req.ed.day.None?) {
      return Err(PARAMERR);
    }
    if req.sd.raw != "" && req.ed.raw != "" && req.sd.day.value > req.ed.day.value {
      return Err(PARAMERR);
    }
    if req.page.None? {
      return Err(PARAMERR);
    }
    var page := req.page.value;
    var w := WindowOf(req);
    assert ParseListing(req) == Ok((w, page));
    // cache
    var key := ListingKeyOf(req);
    var ret := cache.HGet(key, page, f.cacheRead);
    if ret.Hit? {
      return Ok(ret.value);
    }
    ghost var fill := FillListing(cache.entries, store.houses, store.orders, req, w, page, cfg, f);
    assert ListHouses(cache.entries, store.houses, store.orders, req, cfg, f) == fill;
    // store
    if f.db {
      return Err(DBERR);
    }
    var respJson := QueryPage(store.houses, store.orders, req, w, page, cfg.listCapacity);
    if page <= respJson.totalPage {
      cache.PipelineHSetExpire(key, page, respJson, cfg.homeTtl, f.cacheWrite);
    }
    resp := Ok(respJson);
    assert fill == Served(resp, cache.entries);
  }
}

=== FILE: model.dfy ===
// The rows the handlers read and write (ihome/models.py is not part of this
// model; the fields below are the ones the handlers in house.py and
// orders.py touch), and the request arguments they parse.

module Model {
  import opened Base

  /** A calendar date as a day ordinal: `datetime` values compare and
      subtract like these numbers. */
  type Day = int

  /** A date argument as it arrives: `raw` is the query or JSON string ("" when
      absent) and `day` is what `strptime(raw, "%Y-%m-%d")` gives, `None` when
      it raises. Calendar parsing itself is not modelled. */
  datatype DateArg = DateArg(raw: string, day: Option<Day>)

  datatype OrderStatus = WaitAccept | WaitComment | Complete | Rejected

  /** A booking. `housePrice` is the house's price copied at booking time;
      `comment` holds the renter's review or the landlord's rejection reason. */
  datatype Order = Order(
    id: nat,
    houseId: nat,
    userId: nat,
    begin: Day,
    end: Day,
    days: int,
    housePrice: int,
    amount: int,
    status: OrderStatus,
    comment: Option<string>,
    createTime: int)

  /** A listed house. Money is in minor units (fen). The descriptive fields
      keep the strings the landlord submitted; `indexImageUrl` is "" while the
      house has no index image. */
  datatype House = House(
    id: nat,
    ownerId: nat,
    areaId: string,
    title: string,
    price: int,
    address: string,
    roomCount: string,
    acreage: string,
    unit: string,
    capacity: string,
    beds: string,
    deposit: int,
    minDays: string,
    maxDays: string,
    orderCount: int,
    indexImageUrl: string,
    createTime: int,
    facilities: set<nat>)

  datatype Area = Area(id: nat, name: string)

  /** The values of ihome/constants.py (not part of this model) the handlers
      read: the listing page size, the home-page house count, the cache TTLs
      in seconds, and the image URL prefix. */
  datatype Config = Config(
    listCapacity: nat,
    homeMaxHouses: nat,
    areaTtl: nat,
    homeTtl: nat,
    detailTtl: nat,
    imagePrefix: string)

  datatype HouseImage = HouseImage(houseId: nat, url: string)

  /** The basic projection of a house (`House.to_basic_dict`) that listings
      and the home page serialise. */
  datatype Summary = Summary(
    houseId: nat,
    title: string,
    price: int,
    areaId: string,
    imageUrl: string,
    roomCount: string,
    orderCount: int,
    address: string,
    createTime: int)

  function Summarize(h: House): Summary
  {
    Summary(h.id, h.title, h.price, h.areaId, h.indexImageUrl, h.roomCount,
            h.orderCount, h.address, h.createTime)
  }

  /** `House.query.get(id)` on a table whose row i holds id i + 1. */
  function HouseById(houses: seq<House>, id: int): Option<House>
  {
    if 1 <= id <= |houses| then Some(houses[id - 1]) else None
  }

  /** Every row of an autoincrement table with no deletions and no lost ids
      sits at its id - 1. */
  predicate HouseIdsInPlace(houses: seq<House>)
  {
    forall i :: 0 <= i < |houses| ==> houses[i].id == i + 1
  }

  predicate OrderIdsInPlace(orders: seq<Order>)
  {
    forall i :: 0 <= i < |orders| ==> orders[i].id == i + 1
  }

  lemma HouseByIdFinds(houses: seq<House>, id: int)
    requires HouseIdsInPlace(houses)
    ensures HouseById(houses, id).Some? <==> exists h :: h in houses && h.id == id
    ensures HouseById(houses, id).Some? ==> HouseById(houses, id).value.id == id
  {
    if exists h :: h in houses && h.id == id {
      var h :| h in houses && h.id == id;
      var i :| 0 <= i < |houses| && houses[i] == h;
      assert houses[i].id == i + 1;
    }
  }
}

=== FILE: orders.dfy ===
// The order handlers of ihome/api_1_0/orders.py: booking a house
// (save_order), listing a user's orders (get_user_orders), the landlord's
// accept/reject (accept_reject_order) and the renter's review
// (save_order_comment). Each handler is a method on the store (and cache)
// whose postcondition ties its answer and the new tables to a function of the
// old ones; the functions carry what the source promises.

module Orders {
  import opened Base
  import opened Model
  import opened Availability
  import opened Db
  import opened Sorting
  import opened KvCache

  // ---------------------------------------------------------------- booking

  /** The JSON body of a booking; `houseId == None` when the key is absent. */
  datatype OrderRequest = OrderRequest(houseId: Option<int>, start: DateArg, end: DateArg)

  /** Which store calls raise: the house lookup, the conflict count, the commit. */
  datatype BookingFaults = BookingFaults(houseLookup: bool, conflictQuery: bool, commit: bool)

  /** `all([house_id, start_date_str, end_date_str])`: each present and truthy. */
  predicate ParamsPresent(req: OrderRequest)
  {
    req.houseId.Some? && req.houseId.value != 0 && req.start.raw != "" && req.end.raw != ""
  }

  /** Both dates parse and the stay does not end before it begins. */
  predicate DatesValid(req: OrderRequest)
  {
    req.start.day.Some? && req.end.day.Some? && req.start.day.value <= req.end.day.value
  }

  /** What `save_order` decides: the order row to insert, or the errno. */
  function Book(houses: seq<House>, orders: seq<Order>, actor: nat, req: OrderRequest,
                now: int, f: BookingFaults): (r: Result<Order>)
    // parameter and date checks come first and touch nothing
    ensures !ParamsPresent(req) || !DatesValid(req) ==> r == Err(PARAMERR)
    ensures (ParamsPresent(req) && DatesValid(req) && !f.houseLookup
             && HouseById(houses, req.houseId.value).None?) ==> r == Err(NODATA)
    // a landlord cannot book their own house
    ensures (ParamsPresent(req) && DatesValid(req) && !f.houseLookup
             && HouseById(houses, req.houseId.value).Some?
             && HouseById(houses, req.houseId.value).value.ownerId == actor) ==> r == Err(ROLEERR)
    // any order on the house whose dates overlap, whatever its status, refuses
    ensures ParamsPresent(req) && DatesValid(req) && !f.houseLookup && !f.conflictQuery
            && HouseById(houses, req.houseId.value).Some?
            && HouseById(houses, req.houseId.value).value.ownerId != actor
            && (exists p :: p in orders
                  && Clashes(p, req.houseId.value, req.start.day.value, req.end.day.value))
            ==> r == Err(DATAERR)
    // a request that passes every check, with no store call failing, is booked
    ensures ParamsPresent(req) && DatesValid(req) && !f.houseLookup && !f.conflictQuery && !f.commit
            && HouseById(houses, req.houseId.value).Some?
            && HouseById(houses, req.houseId.value).value.ownerId != actor
            && (forall p :: p in orders
                  ==> !Clashes(p, req.houseId.value, req.start.day.value, req.end.day.value))
            ==> r.Ok?
    ensures r.Err? ==> r.code in {PARAMERR, NODATA, ROLEERR, DATAERR, DBERR}
    // DBERR comes only from a failing store call
    ensures r == Err(DBERR) ==> f.houseLookup || f.conflictQuery || f.commit
    // each failing store call answers DBERR on the path that reaches it
    ensures ParamsPresent(req) && DatesValid(req) && f.houseLookup ==> r == Err(DBERR)
    ensures ParamsPresent(req) && DatesValid(req) && !f.houseLookup && f.conflictQuery
            && HouseById(houses, req.houseId.value).Some?
            && HouseById(houses, req.houseId.value).value.ownerId != actor
            ==> r == Err(DBERR)
    ensures ParamsPresent(req) && DatesValid(req) && !f.houseLookup && !f.conflictQuery && f.commit
            && HouseById(houses, req.houseId.value).Some?
            && HouseById(houses, req.houseId.value).value.ownerId != actor
            && (forall p :: p in orders
                  ==> !Clashes(p, req.houseId.value, req.start.day.value, req.end.day.value))
            ==> r == Err(DBERR)
    // and a failing store call never lets the booking through (the rollback)
    ensures r.Ok? ==> !f.houseLookup && !f.conflictQuery && !f.commit
    // the new order: the requested stay, priced at the house's current price
    ensures r.Ok? ==>
      var o := r.value;
      && ParamsPresent(req) && DatesValid(req)
      && o.houseId == req.houseId.value && o.userId == actor
      && o.begin == req.start.day.value && o.end == req.end.day.value
      && o.days == o.end - o.begin + 1 >= 1
      && HouseById(houses, o.houseId).Some?
      && HouseById(houses, o.houseId).value.ownerId != actor
      && o.housePrice == HouseById(houses, o.houseId).value.price
      && o.amount == o.days * o.housePrice
      && o.status == WaitAccept && o.comment == None
      && o.id == |orders| + 1 && o.createTime == now
      && (forall p :: p in orders ==> !Clashes(p, o.houseId, o.begin, o.end))
  {
    if !ParamsPresent(req) || !DatesValid(req) then Err(PARAMERR)
    else
      var start, end := req.start.day.value, req.end.day.value;
      var days := end - start + 1;
      if f.houseLookup then Err(DBERR)
      else match HouseById(houses, req.houseId.value)
        case None => Err(NODATA)
        case Some(house) =>
          var houseId: nat := req.houseId.value;
          if actor == house.ownerId then Err(ROLEERR)
          else if f.conflictQuery then Err(DBERR)
          else if |Clashing(orders, houseId, start, end)| > 0 then
            assert Clashing(orders, houseId, start, end)[0] in Clashing(orders, houseId, start, end);
            Err(DATAERR)
          else if f.commit then Err(DBERR)
          else Ok(Order(|orders| + 1, houseId, actor, start, end, days, house.price,
                        days * house.price, WaitAccept, None, now))
  }

  /** A successful booking keeps the tables consistent: in particular no
      house ends up booked twice for the same day. */
  lemma BookingKeepsConsistent(houses: seq<House>, orders: seq<Order>, actor: nat,
                               req: OrderRequest, now: int, f: BookingFaults)
    requires Consistent(houses, orders)
    requires Book(houses, orders, actor, req, now, f).Ok?
    ensures Consistent(houses, orders + [Book(houses, orders, actor, req, now, f).value])
  {
    var o := Book(houses, orders, actor, req, now, f).value;
    AppendKeepsCalendarDisjoint(orders, o);
    var all := orders + [o];
    assert forall i :: 0 <= i < |orders| ==> all[i] == orders[i];
  }

  /** The booking scenario: house 1 (price 10000, owned by user 7) already
      has an order for days 10 to 15. Days 14 to 18 are refused, days 16 to 20
      cost 5 * 10000, and the owner cannot book at all. */
  lemma BookingScenario()
    ensures
      var h := House(1, 7, "1", "t", 10000, "a", "1", "10", "u", "2", "1", 0, "1", "0", 0, "", 0, {});
      var held := Order(1, 1, 8, 10, 15, 6, 10000, 60000, WaitAccept, None, 0);
      var ok := BookingFaults(false, false, false);
      && Book([h], [held], 9, OrderRequest(Some(1), DateArg("d14", Some(14)), DateArg("d18", Some(18))), 1, ok)
         == Err(DATAERR)
      && Book([h], [held], 9, OrderRequest(Some(1), DateArg("d16", Some(16)), DateArg("d20", Some(20))), 1, ok).Ok?
      && Book([h], [held], 9, OrderRequest(Some(1), DateArg("d16", Some(16)), DateArg("d20", Some(20))), 1, ok)
           .value.amount == 5 * 10000
      && Book([h], [held], 7, OrderRequest(Some(1), DateArg("d16", Some(16)), DateArg("d20", Some(20))), 1, ok)
         == Err(ROLEERR)
  {
    var held := Order(1, 1, 8, 10, 15, 6, 10000, 60000, WaitAccept, None, 0);
    assert Clashes(held, 1, 14, 18);
    assert Clashing([held], 1, 14, 18) == [held];
    assert !Clashes(held, 1, 16, 20);
    assert Clashing([held], 1, 16, 20) == [];
  }

  /** `save_order`. */
  method SaveOrder(store: Store, actor: nat, req: OrderRequest, now: int, f: BookingFaults)
    returns (r: Result<nat>)
    requires store.Valid()
    modifies store`orders
    ensures store.Valid()
    ensures var b := Book(old(store.houses), old(store.orders), actor, req, now, f);
      && (b.Ok? ==> r == Ok(b.value.id) && store.orders == old(store.orders) + [b.value])
      && (b.Err? ==> r == Err(b.code) && store.orders == old(store.orders))
  {
    if !ParamsPresent(req) {
      return Err(PARAMERR);
    }
    var houseId := req.houseId.value;
    if req.start.day.None? || req.end.day.None? || req.start.day.value > req.end.day.value {
      return Err(PARAMERR);
    }
    var start, end := req.start.day.value, req.end.day.value;
    var days := end - start + 1;
    if f.houseLookup {
      return Err(DBERR);
    }
    var found := HouseById(store.houses, houseId);
    if found.None? {
      return Err(NODATA);
    }
    var house := found.value;
    if actor == house.ownerId {
      return Err(ROLEERR);
    }
    if f.conflictQuery {
      return Err(DBERR);
    }
    var count := |Clashing(store.orders, houseId, start, end)|;
    if count > 0 {
      return Err(DATAERR);
    }
    var amount := days * house.price;
    var order := Order(|store.orders| + 1, houseId, actor, start, end, days, house.price,
                       amount, WaitAccept, None, now);
    if f.commit {
      return Err(DBERR);
    }
    BookingKeepsConsistent(store.houses, store.orders, actor, req, now, f);
    store.orders := store.orders + [order];
    r := Ok(order.id);
  }

  // ----------------------------------------------------------- order lists

  /** Orders on any of the given houses, in table order. */
  function OrdersOnHouses(orders: seq<Order>, houseIds: set<nat>): (r: seq<Order>)
    ensures forall o :: o in r <==> o in orders && o.houseId in houseIds
    ensures multiset(r) <= multiset(orders)
  {
    if orders == [] then []
    else
      var rest := OrdersOnHouses(orders[1..], houseIds);
      assert orders == [orders[0]] + orders[1..];
      if orders[0].houseId in houseIds then [orders[0]] + rest else rest
  }

  /** Orders placed by the renter, in table order. */
  function OrdersOfRenter(orders: seq<Order>, renter: nat): (r: seq<Order>)
    ensures forall o :: o in r <==> o in orders && o.userId == renter
    ensures multiset(r) <= multiset(orders)
  {
    if orders == [] then []
    else
      var rest := OrdersOfRenter(orders[1..], renter);
      assert orders == [orders[0]] + orders[1..];
      if orders[0].userId == renter then [orders[0]] + rest else rest
  }

  ghost function OwnedHouseIds(houses: seq<House>, owner: nat): set<nat>
  {
    set h | h in houses && h.ownerId == owner :: h.id
  }

  /** Sort key of `order_by(Order.create_time.desc())`. */
  function NewestFirst(o: Order): int
  {
    -o.createTime
  }

  /** The orders `get_user_orders` shows: those on the actor's houses when the
      role is "landlord", otherwise those the actor placed. */
  ghost function VisibleOrders(houses: seq<House>, orders: seq<Order>, actor: nat, role: string): seq<Order>
  {
    if role == "landlord" then OrdersOnHouses(orders, OwnedHouseIds(houses, actor))
    else OrdersOfRenter(orders, actor)
  }

  /** `get_user_orders`: a landlord sees the orders on their houses, anyone
      else the orders they placed; newest first, each order once. */
  method GetUserOrders(store: Store, actor: nat, role: string, readFails: bool)
    returns (r: Result<seq<Order>>)
    ensures r.Err? <==> readFails
    ensures r.Err? ==> r.code == DBERR
    ensures r.Ok? ==> SortedBy(r.value, NewestFirst)
    ensures r.Ok? ==> multiset(r.value) == multiset(VisibleOrders(store.houses, store.orders, actor, role))
    ensures r.Ok? ==> forall o :: o in r.value <==> (o in store.orders &&
      (if role == "landlord" then o.houseId in OwnedHouseIds(store.houses, actor) else o.userId == actor))
  {
    if readFails {
      return Err(DBERR);
    }
    var selected: seq<Order>;
    if "landlord" == role {
      // houses_ids = [house.id for house in houses]
      var ids: seq<nat> := [];
      var i := 0;
      while i < |store.houses|
        invariant 0 <= i <= |store.houses|
        invariant forall x :: x in ids <==> x in OwnedHouseIds(store.houses[..i], actor)
      {
        if store.houses[i].ownerId == actor {
          ids := ids + [store.houses[i].id];
        }
        assert store.houses[..i + 1] == store.houses[..i] + [store.houses[i]];
        i := i + 1;
      }
      assert store.houses[..i] == store.houses;
      var idSet := set x | x in ids;
      assert idSet == OwnedHouseIds(store.houses, actor);
      selected := OrdersOnHouses(store.orders, idSet);
    } else {
      selected := OrdersOfRenter(store.orders, actor);
    }
    var sorted := SortBy(selected, NewestFirst);
    assert forall o :: o in sorted <==> o in multiset(selected);
    r := Ok(sorted);
  }

  // ------------------------------------------------------- the state machine

  /** The moves an order may make: the landlord accepts or rejects a waiting
      order, the renter reviews an accepted one. */
  predicate Step(from: OrderStatus, to: OrderStatus)
  {
    || (from == WaitAccept && (to == WaitComment || to == Rejected))
    || (from == WaitComment && to == Complete)
  }

  predicate Final(s: OrderStatus)
  {
    s == Complete || s == Rejected
  }

  /** Row `id` of the orders table. */
  function OrderById(orders: seq<Order>, id: int): Option<Order>
  {
    if 1 <= id <= |orders| then Some(orders[id - 1]) else None
  }

  /** The order changed only in status and comment. */
  predicate SameBooking(o: Order, o': Order)
  {
    o' == o.(status := o'.status, comment := o'.comment)
  }

  datatype TransitionFaults = TransitionFaults(read: bool, commit: bool)

  /** What `accept_reject_order` decides: the updated order row, or the
      errno. `reason` is "" when the body carries none. */
  function AcceptReject(houses: seq<House>, orders: seq<Order>, actor: nat, orderId: nat,
                        action: Option<string>, reason: string, f: TransitionFaults): (r: Result<Order>)
    ensures action != Some("accept") && action != Some("reject") ==> r == Err(PARAMERR)
    // a missing or no longer waiting order is reported as a database error
    ensures action in {Some("accept"), Some("reject")} && !f.read
            && (OrderById(orders, orderId).None? || OrderById(orders, orderId).value.status != WaitAccept)
            ==> r == Err(DBERR)
    // only the landlord of the house may decide
    ensures action in {Some("accept"), Some("reject")} && !f.read
            && OrderById(orders, orderId).Some? && OrderById(orders, orderId).value.status == WaitAccept
            && HouseById(houses, OrderById(orders, orderId).value.houseId).Some?
            && HouseById(houses, OrderById(orders, orderId).value.houseId).value.ownerId != actor
            ==> r == Err(REQERR)
    // a permitted move with no store call failing succeeds; a rejection
    // without a reason is refused before the commit
    ensures action in {Some("accept"), Some("reject")} && !f.read
            && OrderById(orders, orderId).Some? && OrderById(orders, orderId).value.status == WaitAccept
            && HouseById(houses, OrderById(orders, orderId).value.houseId).Some?
            && HouseById(houses, OrderById(orders, orderId).value.houseId).value.ownerId == actor
            ==> && (action == Some("reject") && reason == "" ==> r == Err(PARAMERR))
                && (!f.commit && (action == Some("accept") || reason != "") ==> r.Ok?)
    ensures action == Some("reject") && reason == "" ==> r.Err?
    // DBERR: a failing store call, or no waiting order with that id
    ensures r == Err(DBERR) ==>
      f.read || f.commit || OrderById(orders, orderId).None? || OrderById(orders, orderId).value.status != WaitAccept
    // a failed read or commit never lets the move through (the rollback)
    ensures r.Ok? ==> !f.read && !f.commit
    // each answers DBERR on the path that reaches it
    ensures action in {Some("accept"), Some("reject")} && f.read ==> r == Err(DBERR)
    ensures action in {Some("accept"), Some("reject")} && !f.read && f.commit
            && OrderById(orders, orderId).Some? && OrderById(orders, orderId).value.status == WaitAccept
            && HouseById(houses, OrderById(orders, orderId).value.houseId).Some?
            && HouseById(houses, OrderById(orders, orderId).value.houseId).value.ownerId == actor
            && (action == Some("accept") || reason != "")
            ==> r == Err(DBERR)
    // the only escape: the order's house row is missing
    ensures r == Err(Uncaught) ==>
      OrderById(orders, orderId).Some? && HouseById(houses, OrderById(orders, orderId).value.houseId).None?
    ensures r.Ok? ==>
      var o := OrderById(orders, orderId);
      && o.Some? && o.value.status == WaitAccept
      && HouseById(houses, o.value.houseId).Some?
      && HouseById(houses, o.value.houseId).value.ownerId == actor
      && Step(o.value.status, r.value.status) && SameBooking(o.value, r.value)
      && (action == Some("accept") ==> r.value == o.value.(status := WaitComment))
      && (action == Some("reject") ==> r.value == o.value.(status := Rejected, comment := Some(reason)) && reason != "")
  {
    if action != Some("accept") && action != Some("reject") then Err(PARAMERR)
    else if f.read then Err(DBERR)
    else match OrderById(orders, orderId)
      case None => Err(DBERR)
      case Some(o) =>
        // the query filters on status; no row means `None.house`, which raises
        if o.status != WaitAccept then Err(DBERR)
        else match HouseById(houses, o.houseId)
          // `house.user_id` on None raises outside any try
          case None => Err(Uncaught)
          case Some(h) =>
            if h.ownerId != actor then Err(REQERR)
            else if action == Some("accept") then
              if f.commit then Err(DBERR) else Ok(o.(status := WaitComment))
            else if reason == "" then Err(PARAMERR)
            else if f.commit then Err(DBERR)
            else Ok(o.(status := Rejected, comment := Some(reason)))
  }

  /** Changing an order's status and comment keeps the tables consistent. */
  lemma UpdateKeepsConsistent(houses: seq<House>, orders: seq<Order>, i: nat, o: Order)
    requires Consistent(houses, orders)
    requires i < |orders| && SameBooking(orders[i], o)
    ensures Consistent(houses, orders[i := o])
  {
    var next := orders[i := o];
    forall a, b | 0 <= a < b < |next| && next[a].houseId == next[b].houseId
      ensures !Overlaps(next[a].begin, next[a].end, next[b].begin, next[b].end)
    {
      assert orders[a].houseId == orders[b].houseId;
    }
  }

  /** `accept_reject_order`. */
  method AcceptRejectOrder(store: Store, actor: nat, orderId: nat, action: Option<string>,
                           reason: string, f: TransitionFaults) returns (r: Ret)
    requires store.Valid()
    modifies store`orders
    ensures store.Valid()
    ensures var d := AcceptReject(old(store.houses), old(store.orders), actor, orderId, action, reason, f);
      && (d.Ok? ==> r == OK && 1 <= orderId <= |old(store.orders)|
                    && store.orders == old(store.orders)[orderId - 1 := d.value])
      && (d.Err? ==> r == d.code && store.orders == old(store.orders))
  {
    if action != Some("accept") && action != Some("reject") {
      return PARAMERR;
    }
    if f.read {
      return DBERR;
    }
    var found := OrderById(store.orders, orderId);
    if found.None? || found.value.status != WaitAccept {
      return DBERR;
    }
    var order := found.value;
    var house := store.houses[order.houseId - 1];
    if house.ownerId != actor {
      return REQERR;
    }
    if action == Some("accept") {
      order := order.(status := WaitComment);
    } else {
      if reason == "" {
        return PARAMERR;
      }
      order := order.(status := Rejected, comment := Some(reason));
    }
    if f.commit {
      return DBERR;
    }
    UpdateKeepsConsistent(store.houses, store.orders, orderId - 1, order);
    store.orders := store.orders[orderId - 1 := order];
    r := OK;
  }

  /** The JSON body of a review: absent altogether, or carrying a comment
      ("" when the key is missing or empty). */
  datatype CommentBody = NoJsonBody | JsonBody(comment: string)

  datatype CommentFaults = CommentFaults(read: bool, commit: bool, cacheDelete: bool)

  /** What `save_order_comment` decides: the completed order and the house
      with its bumped counter, or the errno. */
  function Review(houses: seq<House>, orders: seq<Order>, actor: nat, orderId: nat,
                  body: CommentBody, f: CommentFaults): (r: Result<(Order, House)>)
    ensures body.NoJsonBody? ==> r == Err(Uncaught)
    ensures body == JsonBody("") ==> r == Err(PARAMERR)
    // no matching order: `None.house` raises inside the try, so the REQERR
    // branch of the handler is never taken
    ensures body.JsonBody? && body.comment != "" && !f.read
            && (OrderById(orders, orderId).None?
                || OrderById(orders, orderId).value.userId != actor
                || OrderById(orders, orderId).value.status != WaitComment)
            ==> r == Err(DBERR)
    ensures r != Err(REQERR)
    // the renter's accepted order, with its house present and no store call
    // failing, is completed
    ensures body.JsonBody? && body.comment != "" && !f.read && !f.commit
            && OrderById(orders, orderId).Some?
            && OrderById(orders, orderId).value.userId == actor
            && OrderById(orders, orderId).value.status == WaitComment
            && HouseById(houses, OrderById(orders, orderId).value.houseId).Some?
            ==> r.Ok?
    // DBERR: a failing store call, no matching order, or a missing house row
    ensures r == Err(DBERR) ==>
      || f.read || f.commit || OrderById(orders, orderId).None?
      || OrderById(orders, orderId).value.userId != actor
      || OrderById(orders, orderId).value.status != WaitComment
      || HouseById(houses, OrderById(orders, orderId).value.houseId).None?
    // a failed read or commit never lets the review through (the rollback)
    ensures r.Ok? ==> !f.read && !f.commit
    // a failed read, a missing house row or a failed commit answers DBERR
    ensures body.JsonBody? && body.comment != "" && f.read ==> r == Err(DBERR)
    ensures body.JsonBody? && body.comment != "" && !f.read
            && OrderById(orders, orderId).Some?
            && OrderById(orders, orderId).value.userId == actor
            && OrderById(orders, orderId).value.status == WaitComment
            && (HouseById(houses, OrderById(orders, orderId).value.houseId).None? || f.commit)
            ==> r == Err(DBERR)
    ensures r.Ok? ==>
      var o := OrderById(orders, orderId);
      && body.JsonBody? && body.comment != ""
      && o.Some? && o.value.userId == actor && o.value.status == WaitComment
      && Step(o.value.status, r.value.0.status)
      && r.value.0 == o.value.(status := Complete, comment := Some(body.comment))
      && HouseById(houses, o.value.houseId).Some?
      && r.value.1 == HouseById(houses, o.value.houseId).value.(orderCount := r.value.1.orderCount)
      && r.value.1.orderCount == HouseById(houses, o.value.houseId).value.orderCount + 1
  {
    if body.NoJsonBody? then Err(Uncaught)
    else if body.comment == "" then Err(PARAMERR)
    else if f.read then Err(DBERR)
    else match OrderById(orders, orderId)
      case None => Err(DBERR)
      case Some(o) =>
        if o.userId != actor || o.status != WaitComment then Err(DBERR)
        else match HouseById(houses, o.houseId)
          // `house.order_count += 1` on None raises inside the try
          case None => Err(DBERR)
          case Some(h) =>
            if f.commit then Err(DBERR)
            else Ok((o.(status := Complete, comment := Some(body.comment)),
                     h.(orderCount := h.orderCount + 1)))
  }

  /** The cache after a review: the house's detail entry is deleted once the
      commit succeeded, unless the delete itself fails. */
  function AfterReview(entries: Entries, r: Result<(Order, House)>, f: CommentFaults): (e: Entries)
    ensures e.Keys <= entries.Keys
    ensures r.Ok? && !f.cacheDelete ==> DetailKey(r.value.1.id) !in e
    ensures forall k :: k in e ==> e[k] == entries[k]
    // only the reviewed house's key can go, and only when the delete runs
    ensures r.Ok? ==> forall k :: k in entries && k != DetailKey(r.value.1.id) ==> k in e
    ensures r.Err? || f.cacheDelete ==> e == entries
  {
    if r.Ok? && !f.cacheDelete then entries - {DetailKey(r.value.1.id)} else entries
  }

  /** Once finished, an order never moves again: both handlers refuse it
      and leave the tables as they are. */
  lemma FinishedOrdersStayFinished(houses: seq<House>, orders: seq<Order>, actor: nat,
                                   orderId: nat, action: Option<string>, reason: string,
                                   body: CommentBody, tf: TransitionFaults, cf: CommentFaults)
    requires OrderById(orders, orderId).Some? && Final(OrderById(orders, orderId).value.status)
    ensures AcceptReject(houses, orders, actor, orderId, action, reason, tf).Err?
    ensures Review(houses, orders, actor, orderId, body, cf).Err?
    ensures forall to :: !Step(OrderById(orders, orderId).value.status, to)
  {
  }

  /** `save_order_comment`. */
  method SaveOrderComment(store: Store, cache: Cache, actor: nat, orderId: nat,
                          body: CommentBody, f: CommentFaults) returns (r: Ret)
    requires store.Valid()
    modifies store`orders, store`houses, cache
    ensures store.Valid()
    ensures var v := Review(old(store.houses), old(store.orders), actor, orderId, body, f);
      && (v.Ok? ==> r == OK && 1 <= orderId <= |old(store.orders)|
                    && 1 <= v.value.1.id <= |old(store.houses)|
                    && store.orders == old(store.orders)[orderId - 1 := v.value.0]
                    && store.houses == old(store.houses)[v.value.1.id - 1 := v.value.1])
      && (v.Err? ==> r == v.code && store.orders == old(store.orders) && store.houses == old(store.houses))
      && cache.entries == AfterReview(old(cache.entries), v, f)
  {
    if body.NoJsonBody? {
      return Uncaught;
    }
    var comment := body.comment;
    if comment == "" {
      return PARAMERR;
    }
    if f.read {
      return DBERR;
    }
    var found := OrderById(store.orders, orderId);
    if found.None? || found.value.userId != actor || found.value.status != WaitComment {
      return DBERR;
    }
    var order := found.value;
    var house := store.houses[order.houseId - 1];
    order := order.(status := Complete, comment := Some(comment));
    house := house.(orderCount := house.orderCount + 1);
    if f.commit {
      return DBERR;
    }
    UpdateKeepsConsistent(store.houses, store.orders, orderId - 1, order);
    store.orders := store.orders[orderId - 1 := order];
    store.houses := store.houses[house.id - 1 := house];
    cache.Delete(DetailKey(house.id), f.cacheDelete);
    r := OK;
  }
}

=== FILE: sorting.dfy ===
// The ORDER BY of the handlers' queries: a sort on an integer key. SQL leaves
// the order of rows with equal keys unspecified; this model fixes it (rows with
// equal keys keep their table order).

module Sorting {

  /** `s` is in non-decreasing order of `key`. A descending ORDER BY sorts on
      the negated column. */
  predicate SortedBy<T>(s: seq<T>, key: T -> int)
  {
    forall i, j :: 0 <= i < j < |s| ==> key(s[i]) <= key(s[j])
  }

  /** Putting a row ranked no later than all others in front keeps the order. */
  lemma ConsKeepsSorted<T>(x: T, s: seq<T>, key: T -> int)
    requires SortedBy(s, key)
    requires forall y :: y in s ==> key(x) <= key(y)
    ensures SortedBy([x] + s, key)
  {
    var r := [x] + s;
    forall i, j | 0 <= i < j < |r| ensures key(r[i]) <= key(r[j]) {
      assert r[j] == s[j - 1];
      if i > 0 {
        assert r[i] == s[i - 1];
      }
    }
  }

  function InsertBy<T>(x: T, s: seq<T>, key: T -> int): (r: seq<T>)
    requires SortedBy(s, key)
    ensures SortedBy(r, key)
    ensures multiset(r) == multiset(s) + multiset{x}
  {
    if s == [] then [x]
    else if key(x) <= key(s[0]) then
      ConsKeepsSorted(x, s, key);
      [x] + s
    else
      assert s == [s[0]] + s[1..];
      var rest := InsertBy(x, s[1..], key);
      assert forall y :: y in rest ==> key(s[0]) <= key(y) by {
        forall y | y in rest ensures key(s[0]) <= key(y) {
          assert y in multiset(rest);
          if y != x {
            var k :| 0 <= k < |s[1..]| && s[1..][k] == y;
            assert s[k + 1] == y;
          }
        }
      }
      ConsKeepsSorted(s[0], rest, key);
      [s[0]] + rest
  }

  /** The rows of `s`, each exactly as often as in `s`, in key order. */
  function SortBy<T>(s: seq<T>, key: T -> int): (r: seq<T>)
    ensures SortedBy(r, key)
    ensures multiset(r) == multiset(s)
  {
    if s == [] then []
    else
      assert s == [s[0]] + s[1..];
      InsertBy(s[0], SortBy(s[1..], key), key)
  }
}
